=== FILE: README.md ===
# HR attrition dashboard: a verified model of its analytics

The dashboard is a single Streamlit script, `app.py`. It loads an employee table and trims
its column names. It stops when the table is empty. Otherwise it derives a 0/1 attrition
flag (`Attrition_bool`) and an age band (`AgeBucket`) in place, then computes:

- the head count, the attrition count and rate, and three averages;
- an attrition breakdown by `Department` and by `JobRole`, each with its highest-risk group.

Two pages add small pieces of logic of their own:

- The Assistant page answers a typed question by looking for three phrases in a fixed order.
- The Predictor page picks its features, splits them into numeric and categorical columns, and
  decides whether to hold out a stratified test set before it fits a logistic regression.

This project models that logic in Dafny and proves its properties. The modules are:

- `Wrappers`: `Option` and `Result`.
- `PyText`: Python's `str()`, `strip()`, `lower()` and `in` on the values that occur here.
- `Cells`: one table cell; its text, its number, and the key pandas groups it by, with pandas'
  order on keys. A cell's kind stands in for its column's pandas dtype, which the model does
  not track: pandas loads an integer column with a blank as floats, so such a column arrives
  here as `Float` cells, and a table mixing `Int` and `Missing` in one column is one the
  loader never produces.
- `Tables`: the table as a value, column lookup, and column assignment.
- `Derive`: the attrition flag and the age buckets.
- `Kpi`: the KPI block.
- `Risk`: the group-by, the rates, and `idxmax`.
- `Predictor`: the feature and split decisions.
- `Assistant`: the keyword dispatch.
- `Dashboard`: the shared `df` as a class whose methods update it in place, and one run of the
  script from a loaded table to the Overview figures.

Each derivation and each grouping is a method with a loop, proved equal to a specification
function. The properties are proved about those functions.

Three behaviours of the code are easy to misread, and the model follows the code in each:

- The KPI block sits under a "Defensive preprocessing / KPIs" heading (app.py:71), but it has
  no `try`. A string in `Attrition_bool`, `Age`,
  `MonthlyIncome` or `YearsAtCompany` makes it raise (pandas' sum or mean rejects the mix, or
  `int()` rejects the joined strings of an all-text column), and nothing catches it. `ComputeKpis`
  therefore returns a `Failure`, and so does `Analyse`.
- The top-risk group is not simply the first group met with the highest rate. pandas sorts the
  group keys before `idxmax` looks at them, so a tie goes to the smallest key in that order:
  numbers before strings, strings by code point. `IsTopKey` states exactly that.
- A table without an `Attrition` column does not always report an attrition count of 0. A
  table that arrives with its own `Attrition_bool` keeps it (app.py:76), and line 92 sums
  that column. The count is 0 without `Attrition` only for a table that lacks
  `Attrition_bool` as well, which is what `Kpi.NoAttritionColumn` assumes; `Kpi.OwnFlagCounted` states the other case.

## Model

| member | source | states |
|---|---|---|
| PyText.Strip | app.py:73 | the result is a slice of the input with no whitespace at either end; every non-whitespace character of the input is kept |
| PyText.StripIdempotent | app.py:59 | stripping twice gives what stripping once gives, so the second trim of the column names changes nothing |
| PyText.LowerIdempotent | app.py:757 | lower-casing twice gives what lower-casing once gives |
| Cells.Present | app.py:94 | the number of non-missing cells is at most the number of cells |
| Cells.KeyBeforeTotal | app.py:105 | any two distinct group keys are ordered one way or the other |
| Cells.KeyBeforeTransitive | app.py:105 | the group-key order is transitive |
| Cells.KeyBeforeIrreflexive | app.py:105 | no group key comes before itself |
| Tables.IndexOf | app.py:76 | a column is found exactly when the name is present, and then at its first position |
| Tables.Column | app.py:77 | `df[name]` exists exactly when the column does, with one cell per record |
| Tables.StripColumnNames | app.py:73 | `[c.strip() for c in df.columns]`: the records are kept and each name is replaced by its trimmed form; `StripColumnNamesSpec` states what that gives |
| Tables.WithColumn | app.py:78 | after `df[name] = values` the column holds `values`; a new name is appended after the others; every other column and the record count are unchanged |
| Tables.WithColumnUnchanged | app.py:87 | assigning a column the cells it already holds leaves the table unchanged |
| Tables.StripColumnNamesSpec | app.py:73 | after trimming, each trimmed name is a column and trimming again is a no-op |
| Derive.Flag | app.py:78 | the per-answer `1 if str(x).strip().lower() in [...] else 0`; `FlagCharacterised` and the `FlagOf…` lemmas state its value for every kind of cell |
| Derive.FlagCharacterised | app.py:78 | the flag is 1 exactly for strings whose trimmed lower-case text is yes, y, true or 1; for the int 1; and for True. A float (1.0 included) or a missing value is never 1 |
| Derive.FlagOfInt | app.py:78 | an int gives flag 1 exactly when it is 1 |
| Derive.FlagOfBool | app.py:78 | a bool gives flag 1 exactly when it is True |
| Derive.FlagOfFloat | app.py:78 | a float never gives flag 1: its text is never yes, y, true or 1 |
| Derive.FlagOfMissing | app.py:78 | a missing answer ("nan") gives flag 0 |
| Derive.DeriveFlag | app.py:76-80 | the flag derivation keeps the table well formed and the record count; `DeriveFlagColumns` and `DeriveFlagSpec` state the rest |
| Derive.DeriveFlagColumns | app.py:76-80 | the flag column is appended after the others exactly when the table lacks it |
| Derive.DeriveFlagSpec | app.py:76-80 | an existing Attrition_bool is never overwritten. Otherwise the new column is 0/1, is 1 in a record exactly when its Attrition answer is truthy, is 0 everywhere without an Attrition column, and leaves every other column unchanged |
| Derive.FlagColumn | app.py:78 | the loop flags every raw answer in order, one flag per answer |
| Derive.CutIndex | app.py:87 | for increasing bin edges, an age in [first edge, last edge] falls into exactly one right-closed interval; the first interval also holds its lower edge; no interval holds an age outside that range |
| Derive.AgeLabelSpec | app.py:85-87 | the labels are 18-25 for [17,25], 26-35 for (25,35], 36-45 for (35,45], 46-55 for (45,55] and 55+ for (55,100]; ages below 17 or above 100 get no label |
| Derive.BucketCells | app.py:83-89 | one bucket cell per age; `BucketCellsSpec` states which label each age gets |
| Derive.DeriveBucket | app.py:83-89 | the bucket derivation keeps the table well formed and the record count; `DeriveBucketColumns` and `DeriveBucketIdempotent` state the rest |
| Derive.BucketCellsSpec | app.py:83-89 | every record gets one of the five labels or none. Missing ages and ages outside [17,100] get none. With no string in the column, an age in range gets its interval's label |
| Derive.DeriveBucketColumns | app.py:87 | AgeBucket is appended when the table has Age and no AgeBucket yet |
| Derive.DeriveBucketIdempotent | app.py:83-89 | deriving the buckets twice gives the same table as deriving them once |
| Derive.BucketColumn | app.py:83-89 | the loop gives every record its bucket, or no bucket anywhere when the column holds a string (the exception path) |
| Kpi.Truncate | app.py:92 | `int()` of a number rounds toward zero |
| Kpi.AttritionCount | app.py:92 | `int(df['Attrition_bool'].sum())`, 0 without the column, a failure on text; `AttritionCountOfBinary` and `DerivedAttritionCount` state its value |
| Kpi.AttritionRate | app.py:93 | the rate is 0 for an empty table; otherwise rate × total = 100 × count; it lies in [0,100] when 0 ≤ count ≤ total |
| Kpi.Mean | app.py:94-96 | the mean is "N/A" exactly when no value is present; it fails exactly when a string is present; otherwise mean × (number of values present) = their sum |
| Kpi.Average | app.py:94-96 | one average: "N/A" without the column, otherwise `Mean` of its cells; `Mean`, `MeanWithinBounds` and `MeanSkipsMissing` state its properties |
| Kpi.ComputeKpis | app.py:91-96 | the KPI block, stopping at the first figure that raises; `Dashboard.Analyse` states that a run fails exactly when it does and otherwise reports its figures |
| Kpi.BinaryTotal | app.py:92 | the sum of a 0/1 column is its number of ones, at most its length |
| Kpi.AttritionCountOfBinary | app.py:92-93 | with a 0/1 flag column the count is its number of ones, between 0 and the head count, and the rate lies in [0,100] |
| Kpi.DerivedAttritionCount | app.py:76-92 | after the derivation, attrition_count is the number of truthy Attrition answers, or 0 without the column |
| Kpi.ScenarioTwentyRecordsFiveLeavers | app.py:91-93 | for a table without its own Attrition_bool, twenty records with five "Yes" answers give a count of 5 and a rate of 25 |
| Kpi.NoAttritionColumn | app.py:80-93 | for a table with neither Attrition nor its own Attrition_bool, the count and the rate are 0 |
| Kpi.OwnFlagCounted | app.py:76-92 | a table with its own Attrition_bool keeps it, and the count is 0 exactly when that column holds no text and its sum truncates to 0, whatever Attrition holds |
| Kpi.MeanWithinBounds | app.py:94-96 | an average lies between any lower and upper bound of the values it averages |
| Kpi.MeanSkipsMissing | app.py:94-96 | a missing value does not change an average |
| Risk.AddToTally | app.py:105 | a missing flag leaves a group's tally unchanged; any other flag adds one to total and its value to left |
| Risk.Tallies | app.py:105 | the per-key count and sum of the flags; `TalliesAt` relates it to the reference `Members`, and `TotalsAddUp` sums its totals |
| Risk.Members | app.py:105 | the reference sub-column: the flags of the records with key k, empty exactly when no record has key k |
| Risk.TalliesAt | app.py:105 | a group exists exactly for the keys some record carries; its total is the count and its left the sum of those records' flags |
| Risk.Aggregate | app.py:105 | the one-pass loop with a map accumulator computes exactly those tallies |
| Risk.RowOf | app.py:106 | rate × total = 100 × left; the rate is NaN (None) exactly when total is 0 |
| Risk.WithRates | app.py:106 | adding the rate column keeps the same groups, each with its own rate |
| Risk.TopKey | app.py:107-108 | the result satisfies `IsTopKey`: N/A exactly when no group has a rate; otherwise a group whose rate no other group exceeds, and the least such key in sorted order |
| Risk.TopKeyUnique | app.py:108 | at most one key satisfies `IsTopKey`, so the top group is well defined |
| Risk.RiskBy | app.py:103-110 | the grouping equals `Groups`, and its top group satisfies `IsTopKey` |
| Risk.Groups | app.py:103-110 | the grouping with its rate column, empty when a column is missing or the block raises; `GroupsAt`, `GroupsFailOnText` and `NoDimension` state its cases |
| Risk.GroupsAt | app.py:103-106 | with both columns present and no string flag, a group exists exactly for each key present; its total and left are the count and sum of its records' flags |
| Risk.GroupsFailOnText | app.py:104-110 | a string flag in a keyed record empties the grouping, and the top group reads N/A |
| Risk.NoDimension | app.py:99-103 | without the grouping column there are no groups, and the top group reads N/A |
| Risk.BinaryGroupRate | app.py:105-106 | over 0/1 flags every group has total ≥ 1, 0 ≤ left ≤ total, and a rate in [0,100] |
| Risk.TotalsAddUp | app.py:105 | the group totals add up to the number of keyed records that have a flag |
| Risk.GroupTotalsAddUp | app.py:103-106 | the group totals add up to the keyed records with a flag; over 0/1 flags, to the number of records with a key |
| Predictor.Keep | app.py:782 | the features are exactly the candidates present in the table, in candidate order |
| Predictor.Select | app.py:788-789 | the chosen features are exactly those on the numeric (or non-numeric) side, in feature order |
| Predictor.NumericColumns | app.py:788 | the columns of numeric dtype; `PlanForSpec` states how they split the features |
| Predictor.Classes | app.py:794 | the distinct labels are exactly the keys of the non-missing labels (`nunique` counts them) |
| Predictor.TestSize | app.py:795 | the test set has ⌈n/5⌉ records |
| Predictor.SplitRule | app.py:794 | the guard `y.nunique() > 1 and len(X) >= 10`; `SmallTableTrainsOnAll` and `OneClassTrainsOnAll` state when it fails |
| Predictor.StratifiedFeasible | app.py:795 | when the stratified split can be made: no blank label, every class with two members, both sets at least as large as the number of classes; `SingleLeaverBreaksSplit` and `TwoClassHoldout` show it failing and holding |
| Predictor.SplitAsWritten | app.py:794-797 | as written, the page fails exactly when the guard passes and a stratified split is infeasible (a blank label, a class with one member, or a set smaller than the number of classes); it holds out a test set exactly when the guard passes and the split is feasible |
| Predictor.SingleLeaverBreaksSplit | app.py:794-795 | ten records with one leaver pass the guard, and the stratified split then raises |
| Predictor.ChooseSplit | app.py:794-797 | the corrected rule holds out a test set only when the guard passes and a stratified split is feasible |
| Predictor.ChooseSplitAgrees | app.py:794-797 | the corrected rule agrees with the page wherever the page does not raise, and trains on the whole table where it would |
| Predictor.TwoClassHoldout | app.py:794-795 | with no blank label, two classes of at least two members each and at least ten records, a test set is held out |
| Predictor.SmallTableTrainsOnAll | app.py:794-797 | fewer than ten records always train and test on the whole table |
| Predictor.OneClassTrainsOnAll | app.py:794-797 | a label column with at most one class, blanks allowed, fails the guard: the page and the corrected rule both train on the whole table |
| Predictor.OneClassWithBlank | app.py:794 | labels 0, 0 and a blank count as one class, so the page trains on the whole table |
| Predictor.PlanAsWritten | app.py:782-797 | the page stops ("not enough features") exactly when no candidate column is present; past that it raises exactly when Attrition_bool is absent (KeyError, which a preprocessed table never triggers) or the guard lets an infeasible stratified split through (ValueError) |
| Predictor.PlanFor | app.py:782-797 | the completed set-up, using the corrected split rule: it stops exactly when no candidate column is present and raises only the KeyError, exactly when features exist but Attrition_bool does not, which never happens on a preprocessed table |
| Predictor.PlanForCorrects | app.py:782-797 | wherever the page does not raise, the completed set-up gives the same plan; where the page raises past the guard, it fits on the whole table instead; it raises only where the page does |
| Predictor.SingleLeaverBreaksPage | app.py:782-797 | a table with Age and ten labels with one leaver makes the page raise, while the completed set-up fits on the whole table |
| Predictor.PlanForSpec | app.py:782-797 | a fitted plan uses exactly the present candidates, in order; numeric and categorical columns split the features by dtype, disjoint, covering them and in order; the split is the corrected rule on the labels |
| Predictor.EightRecordsTrainOnAll | app.py:794-797 | eight records with every feature use all six features and train on the whole table |
| Assistant.Respond | app.py:757-775 | the job phrase wins over the department phrase, which wins over overtime; no phrase gives the suggestions; a ranking needs a non-empty grouping; the overtime reply is "missing" without an OverTime column, the breakdown with OverTime and Attrition, and a KeyError with OverTime but no Attrition |
| Assistant.RespondIgnoresCase | app.py:757-769 | a question and its lower-cased form get the same reply |
| Assistant.JobsExample | app.py:755-757 | the placeholder question "high risk jobs" is answered about job roles |
| Assistant.OverTimeExample | app.py:755-769 | the placeholder question "overtime" is answered about overtime |
| Assistant.OverTimeWithoutAttrition | app.py:769-771 | asking "overtime" of a table with OverTime and Attrition_bool but no Attrition crashes the page |
| Assistant.JobsBeforeOverTime | app.py:757-769 | a question naming both job roles and overtime is answered about job roles |
| Dashboard.DataFrame.constructor | app.py:63 | the frame holds the loaded table |
| Dashboard.DataFrame.TrimColumnNames | app.py:73 | the frame's names are replaced by their trimmed forms and the records are untouched |
| Dashboard.DataFrame.SetColumn | app.py:78 | the frame becomes `WithColumn` of its old contents |
| Dashboard.DataFrame.DeriveAttritionFlag | app.py:76-80 | the frame becomes `DeriveFlag` of its old contents |
| Dashboard.DataFrame.DeriveAgeBucket | app.py:83-89 | the frame becomes `DeriveBucket` of its old contents |
| Dashboard.Prepare | app.py:73-89 | the preprocessed table is well formed and keeps the record count |
| Dashboard.Analyse | app.py:59-119 | a run fails exactly when the frame is empty or the KPI block raises. Otherwise it returns the preprocessed table, its KPIs, both groupings, and their top groups as `IsTopKey` defines them |
| Dashboard.PrepareSpec | app.py:73-89 | after preprocessing Attrition_bool is always present; AgeBucket is present whenever Age is; every trimmed column is kept |
| Dashboard.PreparedFlags | app.py:76-89 | a derived flag column is 0/1, and the bucket derivation leaves it unchanged |
| Dashboard.PreparedAttrition | app.py:76-93 | end to end, for a table without its own Attrition_bool, the count is the number of truthy answers, at most the head count, and the rate lies in [0,100] |
| Dashboard.PreparedGroups | app.py:76-119 | end to end, for a table without its own Attrition_bool, every Department or JobRole group has a record and a rate in [0,100], and the group totals add up to the records with a key |

## Left out

- Streamlit layout, CSS and HTML, the sidebar, the page router, and every chart; these are presentation only.
- Reading and writing CSV files and `st.cache_data`. `load_data` turns a read error into an empty frame. The model starts from the loaded table, and `Analyse` stops on an empty one.
- The scikit-learn pipeline: imputers, scaler, encoder, the logistic-regression fit and `predict_proba`, and the prediction form. Only the decisions taken before the fit are modelled.
- Floating point. Sums, rates and means are exact reals. `round(…, 1)` on the displayed figures is not modelled.
- Kpi.Mean: the `int()` truncation of the displayed average income is not applied. The model keeps the exact mean.
- PyText.FloatText: Python's shortest float repr and exponent form are not modelled. The model's text always has a decimal point; the only property used is that a float's text is never yes, y, true or 1, which also holds of Python's exponent and `inf` forms.
- PyText.LowerIdempotent: `lower()` covers ASCII, the Latin-1 capitals, U+0130 and the Kelvin sign only. Other characters are left as they are; none of the phrases the code looks for is affected.
- Risk.TopKey: when every group's rate is NaN the model reports N/A. pandas either returns NaN or raises there, depending on its version, and a raise also empties the grouping.
- Predictor.StratifiedFeasible: only the library's checks that this page's labels can fail are modelled: a blank label, a class with one member, and a test or training set smaller than the number of classes. The exact error texts are not.
- Duplicate column names: every lookup takes the first column of a name.
- The Assistant's ranking contents: which six groups are shown, in what order, and rounded how. Only the choice of reply is modelled.
- The Visuals page's repeated statistics (lines 515-518, 657-667); they restate the KPI and grouping logic.

## Findings

| source | as written | input that shows it | evidently intended | confidence | as-written member | corrected member |
|---|---|---|---|---|---|---|
| app.py:794-795 | a test set is held out whenever the labels have two distinct values and there are at least ten records; the stratified `train_test_split` raises ValueError when a class has a single member, and the call is outside the `try` | ten records with Attrition_bool = 1, 0, 0, 0, 0, 0, 0, 0, 0, 0 (one leaver) | hold out a stratified test set only when one can be made: no label is blank, every class has at least two members, and both sets are at least as large as the number of classes; otherwise train on the whole table (Predictor.SingleLeaverBreaksSplit and Predictor.SingleLeaverBreaksPage exhibit the failing input; Predictor.PlanAsWritten is the page's set-up as written and Predictor.PlanFor the corrected one, related by Predictor.PlanForCorrects) | not executed | Predictor.SplitAsWritten | Predictor.ChooseSplit |

=== FILE: assistant.dfy ===
/**
 * The Assistant page: a typed question is lower-cased and matched against three phrases,
 * in a fixed order, and the first match decides what is shown.
 */
module Assistant {
  import opened PyText
  import opened Cells
  import opened Risk
  import Derive

  const HIGH_RISK_JOB := "high risk job"
  const HIGH_RISK_DEPT := "high risk dept"
  const OVERTIME := "overtime"
  const OVER_TIME := "OverTime"

  /** What the page shows in answer to a question. */
  datatype Reply =
    | JobRanking          // the six job roles with the highest attrition rate
    | JobRoleMissing      // "JobRole data missing"
    | DepartmentRanking   // the six departments with the highest attrition rate
    | DepartmentMissing   // "Department data missing"
    | OverTimeBreakdown   // record counts by OverTime and Attrition
    | OverTimeMissing     // "OverTime missing"
    | OverTimeRaises      // KeyError: the breakdown also groups by Attrition, which the table lacks
    | Suggestions         // the list of phrases to try

  /** The replies a question can get once it has matched a phrase. */
  predicate AboutJobs(r: Reply) { r == JobRanking || r == JobRoleMissing }
  predicate AboutDepartments(r: Reply) { r == DepartmentRanking || r == DepartmentMissing }
  predicate AboutOverTime(r: Reply) { r == OverTimeBreakdown || r == OverTimeMissing || r == OverTimeRaises }

  /**
   * The reply to `query`, given the job-role and department groupings and the table's columns.
   * The first phrase found in the lower-cased question wins; a ranking needs a non-empty
   * grouping. The breakdown groups by OverTime and Attrition: without OverTime the page says
   * so, and with OverTime but without Attrition the grouping raises, unguarded.
   */
  function Respond(query: string, jobs: map<Key, GroupRow>, departments: map<Key, GroupRow>, columns: seq<string>): (r: Reply)
    ensures AboutJobs(r) <==> Contains(Lower(query), HIGH_RISK_JOB)
    ensures AboutDepartments(r) <==> !Contains(Lower(query), HIGH_RISK_JOB) && Contains(Lower(query), HIGH_RISK_DEPT)
    ensures AboutOverTime(r) <==>
      !Contains(Lower(query), HIGH_RISK_JOB) && !Contains(Lower(query), HIGH_RISK_DEPT) && Contains(Lower(query), OVERTIME)
    ensures r == Suggestions <==> !AboutJobs(r) && !AboutDepartments(r) && !AboutOverTime(r)
    ensures r == JobRanking <==> AboutJobs(r) && jobs != map[]
    ensures r == DepartmentRanking <==> AboutDepartments(r) && departments != map[]
    ensures r == OverTimeBreakdown <==> AboutOverTime(r) && OVER_TIME in columns && Derive.ATTRITION in columns
    ensures r == OverTimeRaises <==> AboutOverTime(r) && OVER_TIME in columns && Derive.ATTRITION !in columns
  {
    var q := Lower(query);
    if Contains(q, HIGH_RISK_JOB) then
      if jobs != map[] then JobRanking else JobRoleMissing
    else if Contains(q, HIGH_RISK_DEPT) then
      if departments != map[] then DepartmentRanking else DepartmentMissing
    else if Contains(q, OVERTIME) then
      if OVER_TIME !in columns then OverTimeMissing
      else if Derive.ATTRITION in columns then OverTimeBreakdown
      else OverTimeRaises
    else Suggestions
  }

  /** The match ignores case: a question and its lower-cased form get the same reply. */
  lemma RespondIgnoresCase(query: string, jobs: map<Key, GroupRow>, departments: map<Key, GroupRow>, columns: seq<string>)
    ensures Respond(Lower(query), jobs, departments, columns) == Respond(query, jobs, departments, columns)
  {
    LowerIdempotent(query);
  }

  /** The placeholder's first example, "high risk jobs", asks about job roles. */
  lemma JobsExample(q: string, jobs: map<Key, GroupRow>, departments: map<Key, GroupRow>, columns: seq<string>)
    requires q == "high risk jobs"
    ensures AboutJobs(Respond(q, jobs, departments, columns))
  {
    LowerPlain(q);
    StartsWith(q, HIGH_RISK_JOB);
  }

  /** The placeholder's second example, "overtime", asks about overtime. */
  lemma OverTimeExample(q: string, jobs: map<Key, GroupRow>, departments: map<Key, GroupRow>, columns: seq<string>)
    requires q == "overtime"
    ensures AboutOverTime(Respond(q, jobs, departments, columns))
  {
    assert Lower(q) == q by {
      LowerPlain(q);
    }
    assert !Contains(q, HIGH_RISK_JOB) && !Contains(q, HIGH_RISK_DEPT) by {
      TooShort(q, HIGH_RISK_JOB);
      TooShort(q, HIGH_RISK_DEPT);
    }
    assert Contains(q, OVERTIME) by {
      StartsWith(q, OVERTIME);
    }
  }

  /**
   * A table that has OverTime and the derived flag but no Attrition column: asking about
   * overtime crashes the page.
   */
  lemma OverTimeWithoutAttrition(q: string, jobs: map<Key, GroupRow>, departments: map<Key, GroupRow>, columns: seq<string>)
    requires q == "overtime" && columns == [OVER_TIME, Derive.ATTRITION_BOOL]
    ensures Respond(q, jobs, departments, columns) == OverTimeRaises
  {
    OverTimeExample(q, jobs, departments, columns);
    assert Derive.ATTRITION !in columns;
  }

  /** lower() leaves lower-case ASCII letters and spaces alone. */
  lemma LowerPlain(s: string)
    requires forall k :: 0 <= k < |s| ==> 'a' <= s[k] <= 'z' || s[k] == ' '
    ensures Lower(s) == s
  {
    LowerIdentity(s);
  }

  /** A string contains each of its prefixes. */
  lemma StartsWith(s: string, p: string)
    requires |p| <= |s| && s[..|p|] == p
    ensures Contains(s, p)
  {
  }

  /** A string shorter than a phrase does not contain it. */
  lemma {:induction false} TooShort(s: string, p: string)
    requires |s| < |p|
    ensures !Contains(s, p)
  {
    if s != [] {
      TooShort(s[1..], p);
    }
  }

  /** A question naming both job roles and overtime is answered about job roles: the order decides. */
  lemma JobsBeforeOverTime(query: string, jobs: map<Key, GroupRow>, departments: map<Key, GroupRow>, columns: seq<string>)
    requires Contains(Lower(query), HIGH_RISK_JOB) && Contains(Lower(query), OVERTIME)
    ensures Respond(query, jobs, departments, columns) == if jobs != map[] then JobRanking else JobRoleMissing
  {
  }
}

=== FILE: cells.dfy ===
/**
 * Cells of the employee table as pandas hands them to the dashboard code, their text form
 * under Python's str(), their numeric form, and the keys pandas groups and counts them by.
 */
module Cells {
  import opened Wrappers
  import opened PyText

  /** One cell: NaN/None, a Python int, a float, a bool, or a string. */
  datatype Value = Missing | Int(i: int) | Float(x: real) | Bool(b: bool) | Text(s: string)

  /** Python's str() of a cell (a missing cell is the float NaN, which prints as "nan"). */
  function Str(v: Value): string
  {
    match v
    case Missing => "nan"
    case Int(i) => IntText(i)
    case Float(x) => FloatText(x)
    case Bool(b) => if b then "True" else "False"
    case Text(s) => s
  }

  /** The number a cell contributes to a pandas sum or mean (True counts as 1); none for NaN and strings. */
  function Number(v: Value): Option<real>
  {
    match v
    case Missing => None
    case Int(i) => Some(i as real)
    case Float(x) => Some(x)
    case Bool(b) => Some(if b then 1.0 else 0.0)
    case Text(_) => None
  }

  /** Whether a column holds a string anywhere, which makes pandas' arithmetic on it raise. */
  predicate HasText(cells: seq<Value>)
  {
    exists i :: 0 <= i < |cells| && cells[i].Text?
  }

  /** Number of non-missing cells (pandas' count, or dropna().size). */
  function Present(cells: seq<Value>): (n: nat)
    ensures n <= |cells|
  {
    if cells == [] then 0 else Present(cells[..|cells| - 1]) + (if cells[|cells| - 1].Missing? then 0 else 1)
  }

  /** Sum of the numeric cells, skipping missing ones (pandas' sum with skipna). */
  function Total(cells: seq<Value>): real
  {
    if cells == [] then 0.0
    else
      var last := cells[|cells| - 1];
      Total(cells[..|cells| - 1]) + (match Number(last) case Some(x) => x case None => 0.0)
  }

  /**
   * A group or class key. Python treats True, 1 and 1.0 as the same dictionary key, so every
   * number becomes a NumKey of its value.
   */
  datatype Key = NumKey(n: real) | StrKey(s: string)

  /** The key of a cell; missing cells have none (groupby and nunique drop NaN). */
  function KeyOf(v: Value): Option<Key>
  {
    match v
    case Missing => None
    case Text(s) => Some(StrKey(s))
    case _ => Some(NumKey(Number(v).value))
  }

  /** Python's `<` on strings: lexicographic by code point. */
  predicate TextBefore(a: string, b: string)
  {
    if a == [] then b != []
    else if b == [] then false
    else a[0] < b[0] || (a[0] == b[0] && TextBefore(a[1..], b[1..]))
  }

  /** The order pandas sorts group keys in: numbers ascending, then strings ascending. */
  predicate KeyBefore(a: Key, b: Key)
  {
    match (a, b)
    case (NumKey(x), NumKey(y)) => x < y
    case (NumKey(_), StrKey(_)) => true
    case (StrKey(_), NumKey(_)) => false
    case (StrKey(s), StrKey(t)) => TextBefore(s, t)
  }

  lemma {:induction false} TextBeforeIrreflexive(a: string)
    ensures !TextBefore(a, a)
  {
    if a != [] {
      TextBeforeIrreflexive(a[1..]);
    }
  }

  lemma {:induction false} TextBeforeTransitive(a: string, b: string, c: string)
    requires TextBefore(a, b) && TextBefore(b, c)
    ensures TextBefore(a, c)
  {
    if a != [] && b != [] && c != [] && a[0] == b[0] && b[0] == c[0] {
      TextBeforeTransitive(a[1..], b[1..], c[1..]);
    }
  }

  lemma {:induction false} TextBeforeTotal(a: string, b: string)
    requires a != b
    ensures TextBefore(a, b) || TextBefore(b, a)
  {
    if a != [] && b != [] && a[0] == b[0] {
      assert a == [a[0]] + a[1..] && b == [b[0]] + b[1..];
      TextBeforeTotal(a[1..], b[1..]);
    }
  }

  /** KeyBefore is a strict total order, so "the least key" is well defined. */
  lemma KeyBeforeIrreflexive(a: Key)
    ensures !KeyBefore(a, a)
  {
    if a.StrKey? {
      TextBeforeIrreflexive(a.s);
    }
  }

  lemma KeyBeforeTransitive(a: Key, b: Key, c: Key)
    requires KeyBefore(a, b) && KeyBefore(b, c)
    ensures KeyBefore(a, c)
  {
    if a.StrKey? && b.StrKey? && c.StrKey? {
      TextBeforeTransitive(a.s, b.s, c.s);
    }
  }

  lemma KeyBeforeTotal(a: Key, b: Key)
    requires a != b
    ensures KeyBefore(a, b) || KeyBefore(b, a)
  {
    if a.StrKey? && b.StrKey? {
      TextBeforeTotal(a.s, b.s);
    }
  }
}

=== FILE: dashboard.dfy ===
/**
 * The dashboard script's shared data frame, which the preprocessing updates in place, and the
 * run from a loaded table to the figures the Overview page shows: KPIs, the two groupings and
 * their highest-risk groups.
 */
module Dashboard {
  import opened Wrappers
  import opened PyText
  import opened Cells
  import opened Tables
  import opened Derive
  import opened Kpi
  import opened Risk

  /** The module-level `df`: column names and records, changed in place by the preprocessing. */
  class DataFrame {
    var columns: seq<string>
    var rows: seq<Row>

    /** The frame's current contents as a table value. */
    function View(): Table
      reads this
    {
      Table(columns, rows)
    }

    ghost predicate Valid()
      reads this
    {
      View().WellFormed()
    }

    constructor (t: Table)
      requires t.WellFormed()
      ensures Valid() && View() == t
    {
      columns := t.columns;
      rows := t.rows;
    }

    /** `df.columns = [c.strip() for c in df.columns]` */
    method TrimColumnNames()
      requires Valid()
      modifies this
      ensures Valid()
      ensures View() == StripColumnNames(old(View()))
    {
      var names: seq<string> := [];
      for k := 0 to |columns|
        invariant |names| == k
        invariant forall m :: 0 <= m < k ==> names[m] == Strip(columns[m])
      {
        names := names + [Strip(columns[k])];
      }
      columns := names;
    }

    /** `df[name] = values`: overwrite the column in place, or append it after the others. */
    method SetColumn(name: string, values: seq<Value>)
      requires Valid() && |values| == |rows|
      modifies this
      ensures Valid()
      ensures View() == WithColumn(old(View()), name, values)
    {
      var updated: seq<Row> := [];
      match IndexOf(columns, name)
      case Some(j) =>
        for i := 0 to |rows|
          invariant |updated| == i
          invariant forall k :: 0 <= k < i ==> updated[k] == rows[k][j := values[k]]
        {
          updated := updated + [rows[i][j := values[i]]];
        }
        rows := updated;
      case None =>
        for i := 0 to |rows|
          invariant |updated| == i
          invariant forall k :: 0 <= k < i ==> updated[k] == rows[k] + [values[k]]
        {
          updated := updated + [rows[i] + [values[i]]];
        }
        columns, rows := columns + [name], updated;
    }

    /** Add Attrition_bool, flagging every record, unless the frame already has it. */
    method DeriveAttritionFlag()
      requires Valid()
      modifies this
      ensures Valid()
      ensures View() == DeriveFlag(old(View()))
    {
      if ATTRITION_BOOL !in columns {
        var flags: seq<Value>;
        var raw := Column(View(), ATTRITION);
        if raw.Some? {
          flags := FlagColumn(raw.value);
        } else {
          flags := seq(|rows|, i => Int(0));
        }
        assert flags == FlagCells(View());
        SetColumn(ATTRITION_BOOL, flags);
      }
    }

    /** Add or overwrite AgeBucket when the frame has an Age column. */
    method DeriveAgeBucket()
      requires Valid()
      modifies this
      ensures Valid()
      ensures View() == DeriveBucket(old(View()))
    {
      var ages := Column(View(), AGE);
      if ages.Some? {
        var buckets := BucketColumn(ages.value);
        assert buckets == BucketCells(ages.value);
        SetColumn(AGE_BUCKET, buckets);
      }
    }
  }

  /** `df.empty`: no records, or no columns. */
  predicate IsEmpty(t: Table)
  {
    |t.rows| == 0 || |t.columns| == 0
  }

  /** The preprocessing as one function: trim the names, derive the flag, derive the buckets. */
  function Prepare(t: Table): (r: Table)
    requires t.WellFormed()
    ensures r.WellFormed() && |r.rows| == |t.rows|
  {
    StripColumnNamesSpec(t);
    DeriveBucket(DeriveFlag(StripColumnNames(t)))
  }

  /** What the Overview page shows; a top group of None reads "N/A". */
  datatype Summary = Summary(
    table: Table,
    kpis: Kpis,
    departments: map<Key, GroupRow>,
    riskByDepartment: Option<Key>,
    jobRoles: map<Key, GroupRow>,
    riskByJobRole: Option<Key>)

  /**
   * One run of the script on a loaded table: names trimmed on load, stop on an empty frame,
   * trim again, derive both columns in place, then the KPIs (an exception there ends the run)
   * and the Department and JobRole groupings.
   */
  method Analyse(t: Table) returns (r: Result<Summary, string>)
    requires t.WellFormed()
    ensures r.Failure? <==> IsEmpty(t) || ComputeKpis(Prepare(t)).Failure?
    ensures r.Success? ==>
      && r.value.table == Prepare(t)
      && ComputeKpis(Prepare(t)) == Success(r.value.kpis)
      && r.value.departments == Groups(Prepare(t), DEPARTMENT)
      && IsTopKey(r.value.departments, r.value.riskByDepartment)
      && r.value.jobRoles == Groups(Prepare(t), JOB_ROLE)
      && IsTopKey(r.value.jobRoles, r.value.riskByJobRole)
  {
    var df := new DataFrame(t);
    df.TrimColumnNames();
    if IsEmpty(df.View()) {
      return Failure("No dataset found");
    }
    StripColumnNamesSpec(t);
    df.TrimColumnNames();
    df.DeriveAttritionFlag();
    df.DeriveAgeBucket();
    var table := df.View();
    assert table == Prepare(t);
    var kpis := ComputeKpis(table);
    if kpis.Failure? {
      return Failure(kpis.error);
    }
    var departments, riskByDepartment := RiskBy(table, DEPARTMENT);
    var jobRoles, riskByJobRole := RiskBy(table, JOB_ROLE);
    r := Success(Summary(table, kpis.value, departments, riskByDepartment, jobRoles, riskByJobRole));
  }

  // ---------------------------------------------------------------- properties

  /**
   * After preprocessing the table always has Attrition_bool, has AgeBucket whenever it has Age,
   * keeps every (trimmed) column it had, and keeps its records.
   */
  lemma PrepareSpec(t: Table)
    requires t.WellFormed()
    ensures ATTRITION_BOOL in Prepare(t).columns
    ensures AGE in StripColumnNames(t).columns ==> AGE_BUCKET in Prepare(t).columns
    ensures forall c :: c in StripColumnNames(t).columns ==> c in Prepare(t).columns
    ensures |Prepare(t).rows| == |t.rows|
  {
    StripColumnNamesSpec(t);
    var s := StripColumnNames(t);
    var f := DeriveFlag(s);
    DeriveFlagColumns(s);
    DeriveBucketColumns(f);
    assert Prepare(t) == DeriveBucket(f);
  }

  /**
   * A table that arrives without Attrition_bool gets a 0/1 flag column that the bucket
   * derivation does not touch.
   */
  lemma PreparedFlags(t: Table)
    requires t.WellFormed() && ATTRITION_BOOL !in StripColumnNames(t).columns
    ensures Column(Prepare(t), ATTRITION_BOOL) == Column(DeriveFlag(StripColumnNames(t)), ATTRITION_BOOL)
    ensures Column(Prepare(t), ATTRITION_BOOL).Some? && Binary(Column(Prepare(t), ATTRITION_BOOL).value)
  {
    StripColumnNamesSpec(t);
    DeriveFlagSpec(StripColumnNames(t));
  }

  /**
   * End to end, for a table without its own Attrition_bool: attrition_count is the number of
   * truthy Attrition answers (0 without the column), at most the head count, and the rate is
   * a percentage.
   */
  lemma PreparedAttrition(t: Table)
    requires t.WellFormed() && ATTRITION_BOOL !in StripColumnNames(t).columns
    ensures var s := StripColumnNames(t);
      AttritionCount(Prepare(t)) == Success(if ATTRITION in s.columns then TruthyCount(Column(s, ATTRITION).value) else 0)
    ensures 0 <= AttritionCount(Prepare(t)).value <= |t.rows|
    ensures 0.0 <= AttritionRate(AttritionCount(Prepare(t)).value, |t.rows|) <= 100.0
  {
    StripColumnNamesSpec(t);
    var s := StripColumnNames(t);
    var p := Prepare(t);
    PreparedFlags(t);
    SameFlagsSameCount(p, DeriveFlag(s));
    DerivedAttritionCount(s);
    AttritionCountOfBinary(p);
  }

  /**
   * End to end, for a table without its own Attrition_bool: every Department or JobRole group
   * has at least one record and a rate in [0, 100], and the group totals add up to the number
   * of records that have a key.
   */
  lemma PreparedGroups(t: Table, dim: string)
    requires t.WellFormed() && ATTRITION_BOOL !in StripColumnNames(t).columns && dim in Prepare(t).columns
    ensures forall k :: k in Groups(Prepare(t), dim) ==>
      && Groups(Prepare(t), dim)[k].total >= 1
      && Groups(Prepare(t), dim)[k].rate.Some?
      && 0.0 <= Groups(Prepare(t), dim)[k].rate.value <= 100.0
    ensures SumOfTotals(Groups(Prepare(t), dim)) == KeyedRecords(Column(Prepare(t), dim).value)
  {
    var p := Prepare(t);
    PreparedFlags(t);
    forall k | k in Groups(p, dim)
      ensures Groups(p, dim)[k].total >= 1 && Groups(p, dim)[k].rate.Some?
      ensures 0.0 <= Groups(p, dim)[k].rate.value <= 100.0
    {
      BinaryGroupRate(p, dim, k);
    }
    var flags := Column(p, ATTRITION_BOOL).value;
    assert !KeyedText(Column(p, dim).value, flags) by {
      assert forall i :: 0 <= i < |flags| ==> !flags[i].Text?;
    }
    GroupTotalsAddUp(p, dim);
  }
}

=== FILE: derive.dfy ===
/**
 * The two derived columns: the 0/1 attrition flag `Attrition_bool` and the categorical
 * `AgeBucket`, each added to (or, for AgeBucket, overwritten in) the table.
 */
module Derive {
  import opened Wrappers
  import opened PyText
  import opened Cells
  import opened Tables

  const ATTRITION := "Attrition"
  const ATTRITION_BOOL := "Attrition_bool"
  const AGE := "Age"
  const AGE_BUCKET := "AgeBucket"

  /** The answers that count as "left the company", after trimming and lower-casing. */
  const TRUTHY: seq<string> := ["yes", "y", "true", "1"]

  /** `str(x).strip().lower()` */
  function Normalized(v: Value): string
  {
    Lower(Strip(Str(v)))
  }

  /** The flag of one raw Attrition cell: 1 when its normalized text is a truthy answer, else 0. */
  function Flag(v: Value): int
  {
    if Normalized(v) in TRUTHY then 1 else 0
  }

  /** A cell whose text has no whitespace and no capital normalizes to that text. */
  lemma NormalizedPlain(v: Value, t: string)
    requires Str(v) == t
    requires forall k :: 0 <= k < |t| ==> !IsSpace(t[k]) && LowerChar(t[k]) == [t[k]]
    ensures Normalized(v) == t
  {
    StripNoSpace(t);
    LowerIdentity(t);
  }

  /** A cell whose text has no whitespace normalizes to its lower-cased text. */
  lemma NormalizedNoSpace(v: Value, t: string)
    requires Str(v) == t
    requires forall k :: 0 <= k < |t| ==> !IsSpace(t[k])
    ensures Normalized(v) == Lower(t)
  {
    StripNoSpace(t);
  }

  /** A string of digits and minus signs is a truthy answer only when it is "1". */
  lemma DigitsTruthy(t: string)
    requires forall k :: 0 <= k < |t| ==> t[k] == '-' || '0' <= t[k] <= '9'
    ensures t in TRUTHY <==> t == "1"
  {
    assert t != "yes" && t != "y" && t != "true" by {
      assert t != [] ==> t[0] == '-' || '0' <= t[0] <= '9';
    }
  }

  /** An int is a truthy answer only when it is 1 (str(i) is a string of digits and '-'). */
  lemma FlagOfInt(i: int)
    ensures Flag(Int(i)) == 1 <==> i == 1
  {
    var t := IntText(i);
    DigitsPlain(t);
    NormalizedPlain(Int(i), t);
    DigitsTruthy(t);
  }

  lemma LowerBoolText()
    ensures Lower("True") == "true" && Lower("False") == "false"
  {
    LowerIdentity("rue");
    LowerIdentity("alse");
  }

  /** str(True).lower() is "true", a truthy answer. */
  lemma NormalizedTrue()
    ensures Normalized(Bool(true)) == "true"
  {
    var t := "True";
    assert forall k :: 0 <= k < |t| ==> !IsSpace(t[k]);
    NormalizedNoSpace(Bool(true), t);
    LowerBoolText();
  }

  /** str(False).lower() is "false", not a truthy answer. */
  lemma NormalizedFalse()
    ensures Normalized(Bool(false)) == "false"
  {
    var t := "False";
    assert forall k :: 0 <= k < |t| ==> !IsSpace(t[k]);
    NormalizedNoSpace(Bool(false), t);
    LowerBoolText();
  }

  /** A bool is a truthy answer exactly when it is True (str(True).lower() is "true"). */
  lemma FlagOfBool(b: bool)
    ensures Flag(Bool(b)) == 1 <==> b
  {
    if b {
      NormalizedTrue();
    } else {
      NormalizedFalse();
    }
  }

  lemma PointSurvives(x: real)
    ensures '.' in Normalized(Float(x))
  {
    var t := FloatText(x);
    StripKeeps(t, '.');
    LowerKeeps(Strip(t), '.');
  }

  /** A float is never a truthy answer: str(1.0) is "1.0", and every float prints with a point. */
  lemma FlagOfFloat(x: real)
    ensures Flag(Float(x)) == 0
  {
    PointSurvives(x);
    assert forall w :: w in TRUTHY ==> '.' !in w;
  }

  /** A missing answer ("nan") is never truthy. */
  lemma FlagOfMissing()
    ensures Flag(Missing) == 0
  {
    var t := "nan";
    assert forall k :: 0 <= k < |t| ==> !IsSpace(t[k]) && LowerChar(t[k]) == [t[k]];
    NormalizedPlain(Missing, t);
  }

  /**
   * What the flag test means for each kind of cell: a string is truthy by its trimmed,
   * lower-cased text; an int only when it is 1; a bool when it is True; a float never;
   * a missing cell never.
   */
  lemma FlagCharacterised(v: Value)
    ensures Flag(v) == 1 <==>
      match v
      case Text(s) => Lower(Strip(s)) in TRUTHY
      case Int(i) => i == 1
      case Bool(b) => b
      case Float(_) => false
      case Missing => false
  {
    match v
    case Text(s) =>
    case Int(i) => FlagOfInt(i);
    case Bool(b) => FlagOfBool(b);
    case Float(x) => FlagOfFloat(x);
    case Missing => FlagOfMissing();
  }

  /** The whole Attrition_bool column as the derivation computes it. */
  function FlagCells(t: Table): (r: seq<Value>)
    requires t.WellFormed()
    ensures |r| == |t.rows|
  {
    match Column(t, ATTRITION)
    case Some(raw) => seq(|raw|, i requires 0 <= i < |raw| => Int(Flag(raw[i])))
    case None => seq(|t.rows|, i => Int(0))
  }

  /** Add Attrition_bool unless the table already has it. */
  function DeriveFlag(t: Table): (r: Table)
    requires t.WellFormed()
    ensures r.WellFormed() && |r.rows| == |t.rows|
  {
    if ATTRITION_BOOL in t.columns then t else WithColumn(t, ATTRITION_BOOL, FlagCells(t))
  }

  /** The flag column is appended after the others when it is new. */
  lemma DeriveFlagColumns(t: Table)
    requires t.WellFormed()
    ensures DeriveFlag(t).columns == if ATTRITION_BOOL in t.columns then t.columns else t.columns + [ATTRITION_BOOL]
  {
  }

  /** Every cell is the integer 0 or 1. */
  predicate Binary(cells: seq<Value>)
  {
    forall i :: 0 <= i < |cells| ==> cells[i] == Int(0) || cells[i] == Int(1)
  }

  /**
   * The derivation: a table that already has Attrition_bool is left exactly as it is;
   * otherwise the new column is 1 in a record exactly when its Attrition answer is truthy,
   * 0 everywhere when there is no Attrition column, and no other column changes.
   */
  lemma {:induction false} DeriveFlagSpec(t: Table)
    requires t.WellFormed()
    ensures ATTRITION_BOOL in t.columns ==> DeriveFlag(t) == t
    ensures ATTRITION_BOOL !in t.columns ==>
      var r := DeriveFlag(t);
      && r.columns == t.columns + [ATTRITION_BOOL]
      && Column(r, ATTRITION_BOOL).Some?
      && Binary(Column(r, ATTRITION_BOOL).value)
      && (forall i :: 0 <= i < |t.rows| ==>
            (Column(r, ATTRITION_BOOL).value[i] == Int(1) <==>
               ATTRITION in t.columns && Normalized(Column(t, ATTRITION).value[i]) in TRUTHY))
      && (forall c :: c != ATTRITION_BOOL ==> Column(r, c) == Column(t, c))
  {
    if ATTRITION_BOOL !in t.columns {
      var r := DeriveFlag(t);
      assert Column(r, ATTRITION_BOOL).value == FlagCells(t);
    }
  }

  /** Loop form of the `apply`: flag every raw Attrition cell. */
  method FlagColumn(raw: seq<Value>) returns (flags: seq<Value>)
    ensures |flags| == |raw|
    ensures forall i :: 0 <= i < |raw| ==> flags[i] == Int(Flag(raw[i]))
  {
    flags := [];
    for i := 0 to |raw|
      invariant |flags| == i
      invariant forall j :: 0 <= j < i ==> flags[j] == Int(Flag(raw[j]))
    {
      flags := flags + [Int(Flag(raw[i]))];
    }
  }

  // ---------------------------------------------------------------- age buckets

  const AGE_BINS: seq<real> := [17.0, 25.0, 35.0, 45.0, 55.0, 100.0]
  const AGE_LABELS: seq<string> := ["18-25", "26-35", "36-45", "46-55", "55+"]

  /** pd.cut rejects bin edges that do not increase. */
  predicate Increasing(bins: seq<real>)
  {
    forall i :: 0 <= i < |bins| - 1 ==> bins[i] < bins[i + 1]
  }

  /** The first bin edge at or after position `k` that `a` does not exceed. */
  function FirstEdgeAtLeast(bins: seq<real>, a: real, k: nat): (j: nat)
    requires 1 <= k < |bins| && a <= bins[|bins| - 1]
    requires k == 1 || bins[k - 1] < a
    ensures k <= j < |bins| && a <= bins[j]
    ensures j == 1 || bins[j - 1] < a
    decreases |bins| - k
  {
    if a <= bins[k] then k else FirstEdgeAtLeast(bins, a, k + 1)
  }

  /**
   * pd.cut with right-closed intervals and include_lowest: the index of the interval
   * (bins[j], bins[j+1]] holding `a`, the first interval also holding bins[0]; none outside.
   */
  function CutIndex(bins: seq<real>, a: real): (r: Option<nat>)
    requires |bins| >= 2 && Increasing(bins)
    ensures r.Some? <==> bins[0] <= a <= bins[|bins| - 1]
    ensures r.Some? ==> r.value < |bins| - 1 && a <= bins[r.value + 1]
    ensures r.Some? ==> bins[r.value] < a || (r.value == 0 && a == bins[0])
  {
    if a < bins[0] || a > bins[|bins| - 1] then None else Some(FirstEdgeAtLeast(bins, a, 1) - 1)
  }

  /** The AgeBucket label of a numeric age. */
  function AgeLabel(a: real): Option<string>
  {
    match CutIndex(AGE_BINS, a)
    case None => None
    case Some(j) => Some(AGE_LABELS[j])
  }

  /**
   * The buckets are the right-closed intervals [17,25], (25,35], (35,45], (45,55], (55,100];
   * 17 lands in '18-25'; anything below 17 or above 100 gets no bucket.
   */
  lemma AgeLabelSpec(a: real)
    ensures AgeLabel(a) == Some("18-25") <==> 17.0 <= a <= 25.0
    ensures AgeLabel(a) == Some("26-35") <==> 25.0 < a <= 35.0
    ensures AgeLabel(a) == Some("36-45") <==> 35.0 < a <= 45.0
    ensures AgeLabel(a) == Some("46-55") <==> 45.0 < a <= 55.0
    ensures AgeLabel(a) == Some("55+") <==> 55.0 < a <= 100.0
    ensures AgeLabel(a) == None <==> a < 17.0 || a > 100.0
  {
    match CutIndex(AGE_BINS, a)
    case None =>
    case Some(j) =>
      assert AGE_LABELS[0] == "18-25" && AGE_LABELS[1] == "26-35" && AGE_LABELS[2] == "36-45";
      assert AGE_LABELS[3] == "46-55" && AGE_LABELS[4] == "55+";
      assert j == 0 || j == 1 || j == 2 || j == 3 || j == 4;
  }

  /** `fillna(-1)` then the number pd.cut sees (True and False count as 1 and 0). */
  function AgeNumber(v: Value): real
  {
    match Number(v)
    case Some(x) => x
    case None => -1.0
  }

  /** The AgeBucket cell of one age cell. */
  function BucketCell(v: Value): Value
  {
    match AgeLabel(AgeNumber(v))
    case Some(l) => Text(l)
    case None => Missing
  }

  /**
   * The whole AgeBucket column: pd.cut raises on a column holding strings, and the
   * `except` then sets every bucket to None.
   */
  function BucketCells(ages: seq<Value>): (r: seq<Value>)
    ensures |r| == |ages|
  {
    if HasText(ages) then seq(|ages|, i => Missing)
    else seq(|ages|, i requires 0 <= i < |ages| => BucketCell(ages[i]))
  }

  /** Add or overwrite AgeBucket when the table has an Age column. */
  function DeriveBucket(t: Table): (r: Table)
    requires t.WellFormed()
    ensures r.WellFormed() && |r.rows| == |t.rows|
  {
    match Column(t, AGE)
    case None => t
    case Some(ages) => WithColumn(t, AGE_BUCKET, BucketCells(ages))
  }

  /**
   * Every record gets at most one bucket and the derivation never fails: each cell is one of
   * the five labels or missing; missing ages and ages outside [17, 100] get no bucket.
   */
  lemma {:induction false} BucketCellsSpec(ages: seq<Value>, i: nat)
    requires i < |ages|
    ensures BucketCells(ages)[i] == Missing || (BucketCells(ages)[i].Text? && BucketCells(ages)[i].s in AGE_LABELS)
    ensures ages[i].Missing? ==> BucketCells(ages)[i] == Missing
    ensures (match Number(ages[i]) case Some(a) => a < 17.0 || a > 100.0 case None => false)
            ==> BucketCells(ages)[i] == Missing
    ensures !HasText(ages) && Number(ages[i]).Some? && 17.0 <= Number(ages[i]).value <= 100.0
            ==> BucketCells(ages)[i] == Text(AgeLabel(Number(ages[i]).value).value)
  {
    AgeLabelSpec(AgeNumber(ages[i]));
  }

  /** The bucket column is appended after the others when the table has ages and no buckets yet. */
  lemma DeriveBucketColumns(t: Table)
    requires t.WellFormed()
    ensures DeriveBucket(t).columns ==
      if AGE in t.columns && AGE_BUCKET !in t.columns then t.columns + [AGE_BUCKET] else t.columns
  {
  }

  /** Deriving the buckets a second time reproduces the same table. */
  lemma {:induction false} DeriveBucketIdempotent(t: Table)
    requires t.WellFormed()
    ensures DeriveBucket(DeriveBucket(t)) == DeriveBucket(t)
  {
    if AGE in t.columns {
      var ages := Column(t, AGE).value;
      var r := DeriveBucket(t);
      assert Column(r, AGE) == Some(ages);
      WithColumnUnchanged(r, AGE_BUCKET, BucketCells(ages));
    }
  }

  /** Loop form of pd.cut inside its try/except: scan for a string, then bucket every age. */
  method BucketColumn(ages: seq<Value>) returns (buckets: seq<Value>)
    ensures |buckets| == |ages|
    ensures HasText(ages) ==> forall i :: 0 <= i < |ages| ==> buckets[i] == Missing
    ensures !HasText(ages) ==> forall i :: 0 <= i < |ages| ==> buckets[i] == BucketCell(ages[i])
  {
    var failed := false;
    for i := 0 to |ages|
      invariant failed <==> exists j :: 0 <= j < i && ages[j].Text?
    {
      if ages[i].Text? {
        failed := true;
      }
    }
    buckets := [];
    for i := 0 to |ages|
      invariant |buckets| == i
      invariant forall j :: 0 <= j < i ==> buckets[j] == if failed then Missing else BucketCell(ages[j])
    {
      buckets := buckets + [if failed then Missing else BucketCell(ages[i])];
    }
  }
}

=== FILE: kpis.dfy ===
/**
 * The KPI block: head count, attrition count and rate, and the three averages that read
 * "N/A" when their column is absent or empty.
 */
module Kpi {
  import opened Wrappers
  import opened Cells
  import opened Tables
  import opened Derive

  const MONTHLY_INCOME := "MonthlyIncome"
  const YEARS_AT_COMPANY := "YearsAtCompany"

  /** The KPI record; an average of None is displayed as "N/A". */
  datatype Kpis = Kpis(
    total: nat,
    attritionCount: int,
    attritionRate: real,
    avgAge: Option<real>,
    avgIncome: Option<real>,
    avgYears: Option<real>)

  /** Python's int() of a float: the integer part, truncating toward zero. */
  function Truncate(x: real): (r: int)
    ensures x >= 0.0 ==> 0 <= r && r as real <= x < r as real + 1.0
    ensures x < 0.0 ==> r <= 0 && r as real - 1.0 < x <= r as real
  {
    if x >= 0.0 then x.Floor else -((-x).Floor)
  }

  /**
   * `int(df['Attrition_bool'].sum())`, or 0 without the column. Summing a column that holds
   * strings raises, and nothing catches it.
   */
  function AttritionCount(t: Table): Result<int, string>
    requires t.WellFormed()
  {
    match Column(t, ATTRITION_BOOL)
    case None => Success(0)
    case Some(flags) =>
      if HasText(flags) then Failure("TypeError: Attrition_bool holds text") else Success(Truncate(Total(flags)))
  }

  /** `100 * count / total`, or 0 for an empty table. */
  function AttritionRate(count: int, total: nat): (r: real)
    ensures total == 0 ==> r == 0.0
    ensures total > 0 ==> r * total as real == 100.0 * count as real
    ensures 0 <= count <= total ==> 0.0 <= r <= 100.0
  {
    if total == 0 then 0.0
    else
      var q := count as real / total as real;
      Quotient(count as real, total as real);
      assert 0 <= count <= total ==> 0.0 <= q <= 1.0 by {
        if 0 <= count <= total {
          RatioBetween(0.0, q, 1.0, total as real, count as real);
        }
      }
      100.0 * q
  }

  /** Multiplying a quotient back by its positive divisor. */
  lemma Quotient(c: real, n: real)
    requires n > 0.0
    ensures (c / n) * n == c && (100.0 * (c / n)) * n == 100.0 * c
  {
  }

  /** A string is a non-missing cell. */
  lemma {:induction false} TextIsPresent(cells: seq<Value>)
    ensures HasText(cells) ==> Present(cells) > 0
  {
    if HasText(cells) {
      var i :| 0 <= i < |cells| && cells[i].Text?;
      var init := cells[..|cells| - 1];
      if i < |cells| - 1 {
        assert init[i].Text?;
        TextIsPresent(init);
      }
    }
  }

  /**
   * `round(col.mean(), 1) if col.dropna().size > 0 else "N/A"`: None when every cell is
   * missing; a failure when a string makes pandas' mean raise; otherwise the mean of the
   * non-missing cells.
   */
  function Mean(cells: seq<Value>): (r: Result<Option<real>, string>)
    ensures r == Success(None) <==> Present(cells) == 0
    ensures r.Failure? <==> HasText(cells)
    ensures r.Success? && r.value.Some? ==> r.value.value * Present(cells) as real == Total(cells)
  {
    TextIsPresent(cells);
    if Present(cells) == 0 then Success(None)
    else if HasText(cells) then Failure("TypeError: cannot average text")
    else Success(Some(Total(cells) / Present(cells) as real))
  }

  /** The average KPI of a column: "N/A" (None) when the table has no such column. */
  function Average(t: Table, name: string): Result<Option<real>, string>
    requires t.WellFormed()
  {
    match Column(t, name)
    case None => Success(None)
    case Some(cells) => Mean(cells)
  }

  /** The whole KPI block; the first exception stops it, as it stops the dashboard script. */
  function ComputeKpis(t: Table): Result<Kpis, string>
    requires t.WellFormed()
  {
    var count :- AttritionCount(t);
    var age :- Average(t, AGE);
    var income :- Average(t, MONTHLY_INCOME);
    var years :- Average(t, YEARS_AT_COMPANY);
    Success(Kpis(|t.rows|, count, AttritionRate(count, |t.rows|), age, income, years))
  }

  // ---------------------------------------------------------------- properties

  /** Number of cells that are the integer 1. */
  function Ones(cells: seq<Value>): nat
  {
    if cells == [] then 0 else Ones(cells[..|cells| - 1]) + (if cells[|cells| - 1] == Int(1) then 1 else 0)
  }

  /** Number of raw answers that the flag test finds truthy. */
  function TruthyCount(raw: seq<Value>): nat
  {
    if raw == [] then 0 else TruthyCount(raw[..|raw| - 1]) + (if Normalized(raw[|raw| - 1]) in TRUTHY then 1 else 0)
  }

  /** The sum of a 0/1 column is the number of its ones, at most its length. */
  lemma {:induction false} BinaryTotal(cells: seq<Value>)
    requires Binary(cells)
    ensures !HasText(cells)
    ensures Total(cells) == Ones(cells) as real
    ensures Ones(cells) <= |cells|
  {
    if cells != [] {
      BinaryTotal(cells[..|cells| - 1]);
    }
  }

  /** A flag column built cell by cell from raw answers has one 1 per truthy answer. */
  lemma {:induction false} FlagOnes(raw: seq<Value>, flags: seq<Value>)
    requires |flags| == |raw|
    requires forall i :: 0 <= i < |raw| ==> flags[i] == Int(Flag(raw[i]))
    ensures Ones(flags) == TruthyCount(raw)
  {
    if raw != [] {
      FlagOnes(raw[..|raw| - 1], flags[..|flags| - 1]);
    }
  }

  /**
   * With a 0/1 flag column, attrition_count is the number of flagged records, never more
   * than the head count, and the rate is a percentage in [0, 100].
   */
  lemma AttritionCountOfBinary(t: Table)
    requires t.WellFormed()
    requires Column(t, ATTRITION_BOOL).Some? && Binary(Column(t, ATTRITION_BOOL).value)
    ensures AttritionCount(t) == Success(Ones(Column(t, ATTRITION_BOOL).value))
    ensures 0 <= AttritionCount(t).value <= |t.rows|
    ensures 0.0 <= AttritionRate(AttritionCount(t).value, |t.rows|) <= 100.0
  {
    BinaryTotal(Column(t, ATTRITION_BOOL).value);
  }

  /** attrition_count reads nothing but the Attrition_bool column. */
  lemma SameFlagsSameCount(a: Table, b: Table)
    requires a.WellFormed() && b.WellFormed() && Column(a, ATTRITION_BOOL) == Column(b, ATTRITION_BOOL)
    ensures AttritionCount(a) == AttritionCount(b)
  {
  }

  /**
   * On a table that did not already have Attrition_bool, the derived attrition_count is the
   * number of truthy Attrition answers, and 0 when there is no Attrition column.
   */
  lemma {:induction false} DerivedAttritionCount(t: Table)
    requires t.WellFormed() && ATTRITION_BOOL !in t.columns
    ensures AttritionCount(DeriveFlag(t)) ==
      Success(if ATTRITION in t.columns then TruthyCount(Column(t, ATTRITION).value) else 0)
  {
    DeriveFlagSpec(t);
    var flags := Column(DeriveFlag(t), ATTRITION_BOOL).value;
    assert flags == FlagCells(t);
    BinaryTotal(flags);
    if ATTRITION in t.columns {
      FlagOnes(Column(t, ATTRITION).value, flags);
    } else {
      assert Ones(flags) == 0 by {
        NoOnes(flags);
      }
    }
  }

  lemma {:induction false} NoOnes(cells: seq<Value>)
    requires forall i :: 0 <= i < |cells| ==> cells[i] == Int(0)
    ensures Ones(cells) == 0
  {
    if cells != [] {
      NoOnes(cells[..|cells| - 1]);
    }
  }

  /** Twenty records, five answering "Yes": attrition_count is 5 and the rate 25%. */
  lemma ScenarioTwentyRecordsFiveLeavers(t: Table)
    requires t.WellFormed() && |t.rows| == 20
    requires ATTRITION in t.columns && ATTRITION_BOOL !in t.columns
    requires TruthyCount(Column(t, ATTRITION).value) == 5
    ensures AttritionCount(DeriveFlag(t)) == Success(5)
    ensures AttritionRate(5, |DeriveFlag(t).rows|) == 25.0
  {
    DerivedAttritionCount(t);
    DeriveFlagSpec(t);
  }

  /** Without an Attrition column every flag is 0, so the count and the rate are 0. */
  lemma NoAttritionColumn(t: Table)
    requires t.WellFormed() && ATTRITION !in t.columns && ATTRITION_BOOL !in t.columns
    ensures AttritionCount(DeriveFlag(t)) == Success(0)
    ensures AttritionRate(0, |DeriveFlag(t).rows|) == 0.0
  {
    DerivedAttritionCount(t);
  }

  /**
   * A table that arrives with its own Attrition_bool keeps it, and attrition_count sums that
   * column whatever Attrition says, with or without an Attrition column.
   */
  lemma OwnFlagCounted(t: Table)
    requires t.WellFormed() && ATTRITION_BOOL in t.columns
    ensures DeriveFlag(t) == t
    ensures AttritionCount(DeriveFlag(t)) == Success(0) <==>
      !HasText(Column(t, ATTRITION_BOOL).value) && Truncate(Total(Column(t, ATTRITION_BOOL).value)) == 0
  {
  }

  /** Cancelling a positive factor on both sides of an inequality. */
  lemma ScaleCancel(a: real, b: real, p: real)
    requires p > 0.0 && a * p <= b * p
    ensures a <= b
  {
  }

  /** A ratio of a sum to a positive count lies between the bounds the sum respects. */
  lemma RatioBetween(lo: real, m: real, hi: real, p: real, t: real)
    requires p > 0.0 && m * p == t && lo * p <= t <= hi * p
    ensures lo <= m <= hi
  {
    ScaleCancel(lo, m, p);
    ScaleCancel(m, hi, p);
  }

  lemma {:induction false} NoTextInPrefix(cells: seq<Value>, n: nat)
    requires n <= |cells| && !HasText(cells)
    ensures !HasText(cells[..n])
  {
  }

  /** `n` copies of `x` added up. */
  function Times(x: real, n: nat): real
  {
    if n == 0 then 0.0 else Times(x, n - 1) + x
  }

  lemma {:induction false} TimesIsProduct(x: real, n: nat)
    ensures Times(x, n) == x * n as real
  {
    if n > 0 {
      TimesIsProduct(x, n - 1);
      assert x * n as real == x * (n - 1) as real + x;
    }
  }

  /** A sum of values each at least `lo` is at least `lo` added once per value. */
  lemma {:induction false} TotalAtLeast(cells: seq<Value>, lo: real)
    requires !HasText(cells)
    requires forall i :: 0 <= i < |cells| && Number(cells[i]).Some? ==> lo <= Number(cells[i]).value
    ensures Times(lo, Present(cells)) <= Total(cells)
  {
    if cells != [] {
      var n := |cells| - 1;
      var init := cells[..n];
      NoTextInPrefix(cells, n);
      assert forall i :: 0 <= i < n ==> init[i] == cells[i];
      TotalAtLeast(init, lo);
    }
  }

  /** A sum of values each at most `hi` is at most `hi` added once per value. */
  lemma {:induction false} TotalAtMost(cells: seq<Value>, hi: real)
    requires !HasText(cells)
    requires forall i :: 0 <= i < |cells| && Number(cells[i]).Some? ==> Number(cells[i]).value <= hi
    ensures Total(cells) <= Times(hi, Present(cells))
  {
    if cells != [] {
      var n := |cells| - 1;
      var init := cells[..n];
      NoTextInPrefix(cells, n);
      assert forall i :: 0 <= i < n ==> init[i] == cells[i];
      TotalAtMost(init, hi);
    }
  }

  /** An average lies between the smallest and the largest value it averages. */
  lemma MeanWithinBounds(cells: seq<Value>, lo: real, hi: real)
    requires Mean(cells).Success? && Mean(cells).value.Some?
    requires forall i :: 0 <= i < |cells| && Number(cells[i]).Some? ==> lo <= Number(cells[i]).value <= hi
    ensures lo <= Mean(cells).value.value <= hi
  {
    var m := Mean(cells).value.value;
    assert !HasText(cells) && Present(cells) != 0;
    var n, t := Present(cells), Total(cells);
    assert m * n as real == t;
    assert lo * n as real <= t by {
      TotalAtLeast(cells, lo);
      TimesIsProduct(lo, n);
    }
    assert t <= hi * n as real by {
      TotalAtMost(cells, hi);
      TimesIsProduct(hi, n);
    }
    RatioBetween(lo, m, hi, n as real, t);
  }

  /** Missing cells do not move an average: it is taken over the non-missing values only. */
  lemma MeanSkipsMissing(cells: seq<Value>)
    ensures Mean(cells + [Missing]) == Mean(cells)
  {
    var ext := cells + [Missing];
    assert ext[..|ext| - 1] == cells;
    assert HasText(ext) == HasText(cells) by {
      if HasText(ext) {
        var i :| 0 <= i < |ext| && ext[i].Text?;
        assert cells[i].Text?;
      }
      if HasText(cells) {
        var i :| 0 <= i < |cells| && cells[i].Text?;
        assert ext[i].Text?;
      }
    }
  }
}

=== FILE: predictor.dfy ===
/**
 * The decisions the Predictor page takes before fitting its logistic regression: which of the
 * six candidate features the table has, which of them are numeric and which categorical, and
 * whether to hold out a stratified 20% test set or to train and test on the whole table.
 */
module Predictor {
  import opened Wrappers
  import opened Cells
  import opened Tables
  import opened Derive

  /** The candidate features, in the order the page lists them. */
  const CANDIDATES: seq<string> :=
    ["Age", "MonthlyIncome", "YearsAtCompany", "DistanceFromHome", "JobSatisfaction", "OverTime"]

  /** Fewer records than this always train on the whole table. */
  const MIN_HOLDOUT_RECORDS := 10

  /** `a` lists some of the elements of `b`, in `b`'s order. */
  predicate IsSubsequence<T(==)>(a: seq<T>, b: seq<T>)
  {
    if a == [] then true
    else if b == [] then false
    else if a[0] == b[0] then IsSubsequence(a[1..], b[1..])
    else IsSubsequence(a, b[1..])
  }

  /** `[c for c in candidates if c in columns]` */
  function Keep(candidates: seq<string>, columns: seq<string>): (r: seq<string>)
    ensures forall c :: c in r <==> c in candidates && c in columns
    ensures IsSubsequence(r, candidates)
  {
    if candidates == [] then []
    else if candidates[0] in columns then [candidates[0]] + Keep(candidates[1..], columns)
    else Keep(candidates[1..], columns)
  }

  /** The features of `features` that are (`numeric`) or are not (`!numeric`) in `numericCols`, in order. */
  function Select(features: seq<string>, numericCols: set<string>, numeric: bool): (r: seq<string>)
    ensures forall c :: c in r <==> c in features && (c in numericCols <==> numeric)
    ensures IsSubsequence(r, features)
  {
    if features == [] then []
    else if (features[0] in numericCols) == numeric then [features[0]] + Select(features[1..], numericCols, numeric)
    else Select(features[1..], numericCols, numeric)
  }

  /**
   * A column pandas stores with a numeric dtype: only ints, floats and missing values.
   * A bool column, or one mixing bools or strings with numbers, is not numeric.
   */
  predicate IsNumericColumn(cells: seq<Value>)
  {
    forall i :: 0 <= i < |cells| ==> cells[i].Missing? || cells[i].Int? || cells[i].Float?
  }

  /** `X.select_dtypes(include=[np.number]).columns`, as a set of names. */
  function NumericColumns(t: Table): set<string>
    requires t.WellFormed()
  {
    set c | c in t.columns && IsNumericColumn(Column(t, c).value)
  }

  // ---------------------------------------------------------------- the train/test split

  /** The distinct non-missing labels: `y.nunique()` is their number. */
  function Classes(y: seq<Value>): (r: set<Key>)
    ensures forall c :: c in r <==> exists i :: 0 <= i < |y| && KeyOf(y[i]) == Some(c)
  {
    set i | 0 <= i < |y| && KeyOf(y[i]).Some? :: KeyOf(y[i]).value
  }

  /** Number of records whose label is `c`. */
  function ClassCount(y: seq<Value>, c: Key): nat
  {
    if y == [] then 0 else ClassCount(y[..|y| - 1], c) + if KeyOf(y[|y| - 1]) == Some(c) then 1 else 0
  }

  /** `ceil(0.2 * n)`: the test-set size train_test_split takes for test_size=0.2. */
  function TestSize(n: nat): (r: nat)
    ensures 5 * r >= n && 5 * (r - 1) < n
  {
    (n + 4) / 5
  }

  /**
   * When a stratified split of `y` can be made: no label is blank (the library rejects NaN in
   * `y`), every class has at least two members, and both the test set and the training set
   * are at least as large as the number of classes. Otherwise train_test_split raises ValueError.
   */
  predicate StratifiedFeasible(y: seq<Value>)
  {
    && (forall i :: 0 <= i < |y| ==> !y[i].Missing?)
    && (forall c :: c in Classes(y) ==> ClassCount(y, c) >= 2)
    && TestSize(|y|) >= |Classes(y)|
    && |y| - TestSize(|y|) >= |Classes(y)|
  }

  /** The guard as written: `y.nunique() > 1 and len(X) >= 10`. */
  predicate SplitRule(y: seq<Value>)
  {
    |Classes(y)| > 1 && |y| >= MIN_HOLDOUT_RECORDS
  }

  datatype Split = Holdout | WholeTable

  /**
   * The split as the page performs it: past the guard it always calls the stratified
   * train_test_split, which raises, outside the page's try block, when that split is infeasible.
   */
  function SplitAsWritten(y: seq<Value>): (r: Result<Split, string>)
    ensures r.Failure? <==> SplitRule(y) && !StratifiedFeasible(y)
    ensures r == Success(Holdout) <==> SplitRule(y) && StratifiedFeasible(y)
  {
    if !SplitRule(y) then Success(WholeTable)
    else if StratifiedFeasible(y) then Success(Holdout)
    else Failure("ValueError: the least populated class in y has too few members")
  }

  /**
   * The split with the guard completed: hold out a stratified test set only when that can
   * be done, otherwise train and test on the whole table.
   */
  function ChooseSplit(y: seq<Value>): (r: Split)
    ensures r == Holdout ==> SplitRule(y) && StratifiedFeasible(y)
  {
    if SplitRule(y) && StratifiedFeasible(y) then Holdout else WholeTable
  }

  /** Ten records, one of them a leaver: the guard lets the split through and it raises. */
  lemma SingleLeaverBreaksSplit()
    ensures SplitAsWritten([Int(1)] + seq(9, i => Int(0))).Failure?
  {
    var y: seq<Value> := [Int(1)] + seq(9, i => Int(0));
    assert KeyOf(y[0]) == Some(NumKey(1.0)) && KeyOf(y[1]) == Some(NumKey(0.0));
    assert {NumKey(0.0), NumKey(1.0)} <= Classes(y);
    assert |{NumKey(0.0), NumKey(1.0)}| == 2;
    SubsetCard({NumKey(0.0), NumKey(1.0)}, Classes(y));
    assert SplitRule(y);
    assert ClassCount(y, NumKey(1.0)) == 1 by {
      OnlyFirst(y, NumKey(1.0));
    }
  }

  lemma SubsetCard<T>(a: set<T>, b: set<T>)
    requires a <= b
    ensures |a| <= |b|
  {
    if a != {} {
      var x :| x in a;
      SubsetCard(a - {x}, b - {x});
    }
  }

  /** A label that occurs only in the first record is counted once. */
  lemma {:induction false} OnlyFirst(y: seq<Value>, c: Key)
    requires y != [] && KeyOf(y[0]) == Some(c)
    requires forall i :: 1 <= i < |y| ==> KeyOf(y[i]) != Some(c)
    ensures ClassCount(y, c) == 1
  {
    if |y| > 1 {
      OnlyFirst(y[..|y| - 1], c);
    }
  }

  /**
   * The completed guard never raises and agrees with the page wherever the page does not
   * raise; it differs only by training on the whole table where the page would crash.
   */
  lemma ChooseSplitAgrees(y: seq<Value>)
    ensures SplitAsWritten(y).Success? ==> SplitAsWritten(y).value == ChooseSplit(y)
    ensures SplitAsWritten(y).Failure? ==> ChooseSplit(y) == WholeTable
    ensures ChooseSplit(y) == Holdout <==> SplitRule(y) && StratifiedFeasible(y)
  {
  }

  /** The two-class case of the derived flag: the completed guard reduces to both classes having two members. */
  lemma {:induction false} TwoClassHoldout(y: seq<Value>)
    requires |Classes(y)| == 2 && |y| >= MIN_HOLDOUT_RECORDS
    requires forall i :: 0 <= i < |y| ==> !y[i].Missing?
    requires forall c :: c in Classes(y) ==> ClassCount(y, c) >= 2
    ensures ChooseSplit(y) == Holdout
  {
    var n := |y|;
    assert TestSize(n) >= 2;
    assert n - TestSize(n) >= 2;
  }

  /** Fewer than ten records always train on the whole table. */
  lemma SmallTableTrainsOnAll(y: seq<Value>)
    requires |y| < MIN_HOLDOUT_RECORDS
    ensures ChooseSplit(y) == WholeTable && SplitAsWritten(y) == Success(WholeTable)
  {
  }

  /**
   * A label column with at most one class (everyone stayed, say, blanks aside) fails
   * `y.nunique() > 1`, so the page and the completed rule both train on the whole table.
   */
  lemma OneClassTrainsOnAll(y: seq<Value>)
    requires |Classes(y)| <= 1
    ensures ChooseSplit(y) == WholeTable && SplitAsWritten(y) == Success(WholeTable)
  {
  }

  /** One class with a blank among its labels: `nunique` drops the blank and counts one. */
  lemma OneClassWithBlank(y: seq<Value>)
    requires y == [Int(0), Int(0), Missing]
    ensures |Classes(y)| == 1 && SplitAsWritten(y) == Success(WholeTable)
  {
    assert KeyOf(y[0]) == Some(NumKey(0.0));
    assert Classes(y) == {NumKey(0.0)};
    OneClassTrainsOnAll(y);
  }

  // ---------------------------------------------------------------- the plan

  /** What the page fits: nothing ("not enough features"), or a model over the kept features. */
  datatype Plan =
    | NoFeatures
    | Fit(features: seq<string>, numeric: seq<string>, categorical: seq<string>, split: Split)

  /**
   * The Predictor page's set-up with the completed split guard. Reading `df['Attrition_bool']`
   * raises KeyError when the table lacks it, after the feature check; on a preprocessed table,
   * the only kind the page sees, that branch is never taken (`Dashboard.PrepareSpec`).
   */
  function PlanFor(t: Table): (r: Result<Plan, string>)
    requires t.WellFormed()
    ensures r == Success(NoFeatures) <==> forall c :: c in CANDIDATES ==> c !in t.columns
    ensures r.Failure? <==> (exists c :: c in CANDIDATES && c in t.columns) && ATTRITION_BOOL !in t.columns
  {
    var features := Keep(CANDIDATES, t.columns);
    if features == [] then Success(NoFeatures)
    else
      assert features[0] in features;
      match Column(t, ATTRITION_BOOL)
      case None => Failure("KeyError: 'Attrition_bool'")
      case Some(y) =>
        var numericCols := NumericColumns(t);
        Success(Fit(features, Select(features, numericCols, true), Select(features, numericCols, false), ChooseSplit(y)))
  }

  /**
   * The Predictor page's set-up as written: past the feature check, reading the label column
   * raises KeyError when the table lacks it, and the stratified split raises ValueError when
   * the guard lets an infeasible split through; both happen before the `try` around the fit.
   * The KeyError is a property of these lines alone: the page itself only ever sees a
   * preprocessed table, which always has Attrition_bool (`Dashboard.PrepareSpec`).
   */
  function PlanAsWritten(t: Table): (r: Result<Plan, string>)
    requires t.WellFormed()
    ensures r == Success(NoFeatures) <==> forall c :: c in CANDIDATES ==> c !in t.columns
    ensures r.Failure? <==>
      && (exists c :: c in CANDIDATES && c in t.columns)
      && (ATTRITION_BOOL !in t.columns || SplitAsWritten(Column(t, ATTRITION_BOOL).value).Failure?)
  {
    var features := Keep(CANDIDATES, t.columns);
    if features == [] then Success(NoFeatures)
    else
      assert features[0] in features;
      match Column(t, ATTRITION_BOOL)
      case None => Failure("KeyError: 'Attrition_bool'")
      case Some(y) =>
        match SplitAsWritten(y)
        case Failure(e) => Failure(e)
        case Success(split) =>
          var numericCols := NumericColumns(t);
          Success(Fit(features, Select(features, numericCols, true), Select(features, numericCols, false), split))
  }

  /**
   * The completed set-up gives the page's plan wherever the page does not raise; where the
   * page raises past the guard, it fits on the whole table instead.
   */
  lemma PlanForCorrects(t: Table)
    requires t.WellFormed()
    ensures PlanAsWritten(t).Success? ==> PlanFor(t) == PlanAsWritten(t)
    ensures PlanAsWritten(t).Failure? && ATTRITION_BOOL in t.columns ==>
      PlanFor(t).Success? && PlanFor(t).value.Fit? && PlanFor(t).value.split == WholeTable
    ensures PlanFor(t).Failure? ==> PlanAsWritten(t).Failure?
  {
    if ATTRITION_BOOL in t.columns {
      ChooseSplitAgrees(Column(t, ATTRITION_BOOL).value);
    }
  }

  /**
   * The page itself on the failing input: ten records, an Age column and one leaver. The page
   * raises; the completed set-up fits on the whole table.
   */
  lemma SingleLeaverBreaksPage(t: Table)
    requires t.WellFormed() && AGE in t.columns
    requires Column(t, ATTRITION_BOOL) == Some([Int(1)] + seq(9, i => Int(0)))
    ensures PlanAsWritten(t).Failure?
    ensures PlanFor(t).Success? && PlanFor(t).value.Fit? && PlanFor(t).value.split == WholeTable
  {
    assert AGE in CANDIDATES;
    SingleLeaverBreaksSplit();
    PlanForCorrects(t);
  }

  /**
   * A fitted plan uses exactly the candidate columns the table has, in candidate order; each
   * of them is numeric or categorical and not both, by its dtype; and the split is the
   * completed guard applied to the label column.
   */
  lemma PlanForSpec(t: Table)
    requires t.WellFormed() && PlanFor(t).Success? && PlanFor(t).value.Fit?
    ensures var p := PlanFor(t).value;
      && p.features != []
      && (forall c :: c in p.features <==> c in CANDIDATES && c in t.columns)
      && IsSubsequence(p.features, CANDIDATES)
      && (forall c :: c in p.numeric <==> c in p.features && IsNumericColumn(Column(t, c).value))
      && (forall c :: c in p.categorical <==> c in p.features && !IsNumericColumn(Column(t, c).value))
      && IsSubsequence(p.numeric, p.features) && IsSubsequence(p.categorical, p.features)
      && p.split == ChooseSplit(Column(t, ATTRITION_BOOL).value)
  {
  }

  /** Eight records with every feature present: the model trains and tests on all eight. */
  lemma EightRecordsTrainOnAll(t: Table)
    requires t.WellFormed() && |t.rows| == 8
    requires forall c :: c in CANDIDATES ==> c in t.columns
    requires ATTRITION_BOOL in t.columns
    ensures PlanFor(t).Success? && PlanFor(t).value.Fit? && PlanFor(t).value.split == WholeTable
    ensures PlanFor(t).value.features == CANDIDATES
  {
    KeepAll(CANDIDATES, t.columns);
  }

  lemma {:induction false} KeepAll(candidates: seq<string>, columns: seq<string>)
    requires forall c :: c in candidates ==> c in columns
    ensures Keep(candidates, columns) == candidates
  {
    if candidates != [] {
      KeepAll(candidates[1..], columns);
    }
  }
}

=== FILE: pytext.dfy ===
/**
 * The Python string operations the dashboard applies to cells, column names and queries:
 * str() of integers and floats, str.strip(), str.lower() and the substring test `p in s`.
 */
module PyText {

  /** Python's str.isspace() on one character. */
  predicate IsSpace(c: char)
  {
    c == ' ' || '\t' <= c <= '\r' || '\U{1C}' <= c <= '\U{1F}' || c == '\U{85}' || c == '\U{A0}'
    || c == '\U{1680}' || '\U{2000}' <= c <= '\U{200A}' || c == '\U{2028}' || c == '\U{2029}'
    || c == '\U{202F}' || c == '\U{205F}' || c == '\U{3000}'
  }

  /** Number of whitespace characters at the front of `s`. */
  function LeadingSpaces(s: string): (n: nat)
    ensures n <= |s|
    ensures forall k :: 0 <= k < n ==> IsSpace(s[k])
    ensures n < |s| ==> !IsSpace(s[n])
  {
    if s == [] || !IsSpace(s[0]) then 0 else 1 + LeadingSpaces(s[1..])
  }

  /** Number of whitespace characters at the back of `s`. */
  function TrailingSpaces(s: string): (n: nat)
    ensures n <= |s|
    ensures forall k :: |s| - n <= k < |s| ==> IsSpace(s[k])
    ensures n < |s| ==> !IsSpace(s[|s| - 1 - n])
  {
    if s == [] || !IsSpace(s[|s| - 1]) then 0 else 1 + TrailingSpaces(s[..|s| - 1])
  }

  /**
   * Python's str.strip(): the slice of `s` that remains once whitespace is removed from both
   * ends. Every non-whitespace character of `s` survives, in place.
   */
  function Strip(s: string): (r: string)
    ensures LeadingSpaces(s) + |r| <= |s|
    ensures r == s[LeadingSpaces(s)..LeadingSpaces(s) + |r|]
    ensures r == [] || (!IsSpace(r[0]) && !IsSpace(r[|r| - 1]))
    ensures forall k :: 0 <= k < |s| && !IsSpace(s[k]) ==> LeadingSpaces(s) <= k < LeadingSpaces(s) + |r|
  {
    var u := s[LeadingSpaces(s)..];
    u[..|u| - TrailingSpaces(u)]
  }

  /** Stripping twice is stripping once (column names are stripped on load and again before use). */
  lemma {:induction false} StripIdempotent(s: string)
    ensures Strip(Strip(s)) == Strip(s)
  {
    var r := Strip(s);
    assert LeadingSpaces(r) == 0;
    assert TrailingSpaces(r) == 0;
  }

  /** A non-whitespace character of a string survives strip(). */
  lemma StripKeeps(s: string, c: char)
    requires c in s && !IsSpace(c)
    ensures c in Strip(s)
  {
    var k :| 0 <= k < |s| && s[k] == c;
    var r := Strip(s);
    var n := LeadingSpaces(s);
    assert n <= k < n + |r|;
    assert r[k - n] == s[k];
  }

  /** A digit or a minus sign is not whitespace and lower() leaves it alone. */
  lemma DigitPlain(c: char)
    requires c == '-' || '0' <= c <= '9'
    ensures !IsSpace(c) && LowerChar(c) == [c]
  {
  }

  /** A string of digits and minus signs has no whitespace and lower() leaves it alone. */
  lemma DigitsPlain(t: string)
    requires forall k :: 0 <= k < |t| ==> t[k] == '-' || '0' <= t[k] <= '9'
    ensures forall k :: 0 <= k < |t| ==> !IsSpace(t[k]) && LowerChar(t[k]) == [t[k]]
  {
    forall k | 0 <= k < |t|
      ensures !IsSpace(t[k]) && LowerChar(t[k]) == [t[k]]
    {
      DigitPlain(t[k]);
    }
  }

  /** strip() leaves a string without whitespace as it is. */
  lemma StripNoSpace(s: string)
    requires forall k :: 0 <= k < |s| ==> !IsSpace(s[k])
    ensures Strip(s) == s
  {
    if s != [] {
      assert LeadingSpaces(s) == 0;
      assert |s| - 1 < |Strip(s)|;
    }
  }

  /** Python's lower-case mapping of one character, for the characters whose mapping is modelled. */
  function LowerChar(c: char): string
  {
    if 'A' <= c <= 'Z' || ('\U{C0}' <= c <= '\U{DE}' && c != '\U{D7}') then [(c as int + 32) as char]
    else if c == '\U{130}' then "i\U{307}"
    else if c == '\U{212A}' then "k"
    else [c]
  }

  /** Python's str.lower(). */
  function Lower(s: string): string
  {
    if s == [] then [] else LowerChar(s[0]) + Lower(s[1..])
  }

  /** A character that lower() leaves alone stays in the lowered string. */
  lemma {:induction false} LowerKeeps(s: string, c: char)
    requires c in s && LowerChar(c) == [c]
    ensures c in Lower(s)
  {
    if s[0] != c {
      LowerKeeps(s[1..], c);
    }
  }

  /** lower() is the identity on a string none of whose characters it changes. */
  lemma {:induction false} LowerIdentity(s: string)
    requires forall k :: 0 <= k < |s| ==> LowerChar(s[k]) == [s[k]]
    ensures Lower(s) == s
  {
    if s != [] {
      LowerIdentity(s[1..]);
    }
  }

  lemma {:induction false} LowerAppend(a: string, b: string)
    ensures Lower(a + b) == Lower(a) + Lower(b)
  {
    if a != [] {
      assert (a + b)[1..] == a[1..] + b;
      LowerAppend(a[1..], b);
    } else {
      assert a + b == b;
    }
  }

  /** Lower-casing a second time changes nothing. */
  lemma {:induction false} LowerIdempotent(s: string)
    ensures Lower(Lower(s)) == Lower(s)
  {
    if s != [] {
      var c := s[0];
      LowerAppend(LowerChar(c), Lower(s[1..]));
      LowerIdempotent(s[1..]);
      LowerIdentity(LowerChar(c));
    }
  }

  /** Python's `p in s` on strings. */
  predicate Contains(s: string, p: string)
  {
    (|p| <= |s| && s[..|p|] == p) || (s != [] && Contains(s[1..], p))
  }

  function DigitChar(d: nat): (c: char)
    requires d < 10
    ensures '0' <= c <= '9'
  {
    ('0' as int + d) as char
  }

  /** Decimal digits of a natural number, as str() prints them. */
  function NatText(n: nat): (r: string)
    ensures 1 <= |r| && (n >= 10 <==> |r| >= 2)
    ensures forall k :: 0 <= k < |r| ==> '0' <= r[k] <= '9'
  {
    if n < 10 then [DigitChar(n)] else NatText(n / 10) + [DigitChar(n % 10)]
  }

  /** Python's str() of an int. */
  function IntText(i: int): (r: string)
    ensures r == "1" <==> i == 1
    ensures forall k :: 0 <= k < |r| ==> r[k] == '-' || '0' <= r[k] <= '9'
  {
    if i < 0 then "-" + NatText(-i) else NatText(i)
  }

  /** Up to `n` decimal digits of a fraction in [0, 1), stopping early when it is exhausted. */
  function FracDigits(f: real, n: nat): (r: string)
    requires 0.0 <= f < 1.0
    ensures forall k :: 0 <= k < |r| ==> '0' <= r[k] <= '9'
    decreases n
  {
    if n == 0 || f == 0.0 then ""
    else
      var d := (f * 10.0).Floor;
      [DigitChar(d)] + FracDigits(f * 10.0 - d as real, n - 1)
  }

  /**
   * Python's str() of a float: integral values print as "<digits>.0" (str(1.0) is "1.0"),
   * others as the integer part, a point and the fractional digits.
   */
  function FloatText(x: real): (r: string)
    ensures '.' in r
  {
    var m := if x < 0.0 then -x else x;
    var whole := m.Floor;
    var frac := m - whole as real;
    (if x < 0.0 then "-" else "") + NatText(whole) + "." + (if frac == 0.0 then "0" else FracDigits(frac, 17))
  }
}

=== FILE: risk.dfy ===
/**
 * Attrition by group: `groupby(dim).agg(total=count, left=sum)` over the Attrition_bool
 * column, the rate `100 * left / total` of each group, and `idxmax` of the rates, which is
 * the highest-risk group shown on the Overview page (or "N/A").
 */
module Risk {
  import opened Wrappers
  import opened Cells
  import opened Tables
  import opened Derive
  import Kpi

  const DEPARTMENT := "Department"
  const JOB_ROLE := "JobRole"

  /** What the aggregation has gathered for one group so far: the count and the sum of its flags. */
  datatype Tally = Tally(total: nat, left: real)

  /** One row of the grouped frame; a rate of None is pandas' NaN (0 / 0). */
  datatype GroupRow = GroupRow(total: nat, left: real, rate: Option<real>)

  /** A group's tally after one more record: `count` skips a missing flag, `sum` adds the flag. */
  function AddToTally(t: Tally, flag: Value): (r: Tally)
    ensures flag.Missing? ==> r == t
    ensures !flag.Missing? ==> r.total == t.total + 1
    ensures Number(flag).Some? ==> r.left == t.left + Number(flag).value
  {
    if flag.Missing? then t
    else Tally(t.total + 1, t.left + match Number(flag) case Some(x) => x case None => 0.0)
  }

  /** The tallies of every group met in the records so far; records without a key are dropped. */
  function Tallies(keys: seq<Value>, flags: seq<Value>): map<Key, Tally>
    requires |keys| == |flags|
  {
    if keys == [] then map[]
    else
      var n := |keys| - 1;
      var m := Tallies(keys[..n], flags[..n]);
      match KeyOf(keys[n])
      case None => m
      case Some(k) => m[k := AddToTally(if k in m then m[k] else Tally(0, 0.0), flags[n])]
  }

  /** The flags of the records whose key is `k`, in record order: `df[df[dim] == k]['Attrition_bool']`. */
  function Members(keys: seq<Value>, flags: seq<Value>, k: Key): (r: seq<Value>)
    requires |keys| == |flags|
    ensures r == [] <==> forall i :: 0 <= i < |keys| ==> KeyOf(keys[i]) != Some(k)
    ensures forall j :: 0 <= j < |r| ==> r[j] in flags
  {
    if keys == [] then []
    else
      var n := |keys| - 1;
      var init := Members(keys[..n], flags[..n], k);
      assert forall i :: 0 <= i < n ==> keys[..n][i] == keys[i];
      init + if KeyOf(keys[n]) == Some(k) then [flags[n]] else []
  }

  lemma PresentSnoc(s: seq<Value>, v: Value)
    ensures Present(s + [v]) == Present(s) + if v.Missing? then 0 else 1
    ensures Total(s + [v]) == Total(s) + match Number(v) case Some(x) => x case None => 0.0
  {
    assert (s + [v])[..|s|] == s;
  }

  /**
   * The aggregation is pandas' per-group count and sum: a group exists exactly for the keys
   * some record carries, and its total and left are the count and the sum of its records' flags.
   */
  lemma {:induction false} TalliesAt(keys: seq<Value>, flags: seq<Value>, k: Key)
    requires |keys| == |flags|
    ensures k in Tallies(keys, flags) <==> Members(keys, flags, k) != []
    ensures k in Tallies(keys, flags) ==>
      Tallies(keys, flags)[k] == Tally(Present(Members(keys, flags, k)), Total(Members(keys, flags, k)))
  {
    if keys != [] {
      var n := |keys| - 1;
      TalliesAt(keys[..n], flags[..n], k);
      var init := Members(keys[..n], flags[..n], k);
      assert keys[..n] + [keys[n]] == keys;
      if KeyOf(keys[n]) == Some(k) {
        PresentSnoc(init, flags[n]);
        var m := Tallies(keys[..n], flags[..n]);
        var before := if k in m then m[k] else Tally(0, 0.0);
        assert before == Tally(Present(init), Total(init));
        assert Tallies(keys, flags)[k] == AddToTally(before, flags[n]);
        assert Members(keys, flags, k) == init + [flags[n]];
        assert AddToTally(before, flags[n]) == Tally(Present(init + [flags[n]]), Total(init + [flags[n]]));
      } else {
        assert Members(keys, flags, k) == init;
        assert k in Tallies(keys, flags) ==> Tallies(keys, flags)[k] == Tallies(keys[..n], flags[..n])[k];
      }
    }
  }

  /** Loop form of the groupby: one pass over the records with a dictionary of running tallies. */
  method Aggregate(keys: seq<Value>, flags: seq<Value>) returns (m: map<Key, Tally>)
    requires |keys| == |flags|
    ensures m == Tallies(keys, flags)
  {
    m := map[];
    for i := 0 to |keys|
      invariant m == Tallies(keys[..i], flags[..i])
    {
      assert keys[..i + 1][..i] == keys[..i] && flags[..i + 1][..i] == flags[..i];
      match KeyOf(keys[i])
      case None =>
      case Some(k) =>
        m := m[k := AddToTally(if k in m then m[k] else Tally(0, 0.0), flags[i])];
    }
    assert keys[..|keys|] == keys && flags[..|flags|] == flags;
  }

  /** `grp['rate'] = 100 * grp['left'] / grp['total']` for one group. */
  function RowOf(t: Tally): (g: GroupRow)
    ensures g.total == t.total && g.left == t.left
    ensures g.rate.None? <==> t.total == 0
    ensures g.rate.Some? ==> g.rate.value * t.total as real == 100.0 * t.left
  {
    if t.total == 0 then GroupRow(0, t.left, None)
    else GroupRow(t.total, t.left, Some(100.0 * t.left / t.total as real))
  }

  function WithRates(m: map<Key, Tally>): (g: map<Key, GroupRow>)
    ensures g.Keys == m.Keys
    ensures forall k :: k in g ==> g[k] == RowOf(m[k])
  {
    map k | k in m :: RowOf(m[k])
  }

  /** Some record with a key has a string flag: pandas' sum or the rate division then raises. */
  predicate KeyedText(keys: seq<Value>, flags: seq<Value>)
    requires |keys| == |flags|
  {
    exists i :: 0 <= i < |keys| && KeyOf(keys[i]).Some? && flags[i].Text?
  }

  /**
   * The grouped frame for column `dim`: empty when `dim` or Attrition_bool is missing, and
   * empty when the aggregation raises (the `except` resets it).
   */
  function Groups(t: Table, dim: string): map<Key, GroupRow>
    requires t.WellFormed()
  {
    match (Column(t, dim), Column(t, ATTRITION_BOOL))
    case (Some(keys), Some(flags)) =>
      if KeyedText(keys, flags) then map[] else WithRates(Tallies(keys, flags))
    case _ => map[]
  }

  /**
   * `idxmax` of the rates among the keys in `dom`: none when no rate there is defined;
   * otherwise a key with a defined rate that no other rate exceeds, and the first such key
   * in pandas' sorted key order.
   */
  predicate IsTopAmong(g: map<Key, GroupRow>, dom: set<Key>, top: Option<Key>)
  {
    match top
    case None => forall k :: k in dom && k in g ==> g[k].rate.None?
    case Some(b) =>
      && b in dom && b in g && g[b].rate.Some?
      && forall k :: k in dom && k in g && g[k].rate.Some? ==>
           g[k].rate.value < g[b].rate.value || (g[k].rate.value == g[b].rate.value && !KeyBefore(k, b))
  }

  predicate IsTopKey(g: map<Key, GroupRow>, top: Option<Key>)
  {
    IsTopAmong(g, g.Keys, top)
  }

  /** The highest-risk group is well defined: at most one key meets the description. */
  lemma TopKeyUnique(g: map<Key, GroupRow>, a: Option<Key>, b: Option<Key>)
    requires IsTopKey(g, a) && IsTopKey(g, b)
    ensures a == b
  {
    if a.Some? && b.Some? && a.value != b.value {
      KeyBeforeTotal(a.value, b.value);
    }
  }

  /** idxmax as a scan over the groups, keeping the best key met so far. */
  method TopKey(g: map<Key, GroupRow>) returns (top: Option<Key>)
    ensures IsTopKey(g, top)
  {
    top := None;
    var rest := g.Keys;
    while rest != {}
      invariant rest <= g.Keys
      invariant IsTopAmong(g, g.Keys - rest, top)
      decreases |rest|
    {
      var k :| k in rest;
      var seen := g.Keys - rest;
      if g[k].rate.Some? {
        match top
        case None =>
          KeyBeforeIrreflexive(k);
          top := Some(k);
        case Some(b) =>
          var x, y := g[k].rate.value, g[b].rate.value;
          if x > y || (x == y && KeyBefore(k, b)) {
            forall j | j in seen && g[j].rate.Some? && g[j].rate.value == x
              ensures !KeyBefore(j, k)
            {
              if KeyBefore(j, k) {
                KeyBeforeTransitive(j, k, b);
              }
            }
            KeyBeforeIrreflexive(k);
            top := Some(k);
          }
      }
      rest := rest - {k};
    }
  }

  /** The grouping of one column together with its highest-risk group (None reads "N/A"). */
  method RiskBy(t: Table, dim: string) returns (groups: map<Key, GroupRow>, top: Option<Key>)
    requires t.WellFormed()
    ensures groups == Groups(t, dim)
    ensures IsTopKey(groups, top)
  {
    groups := map[];
    var keys := Column(t, dim);
    var flags := Column(t, ATTRITION_BOOL);
    if keys.Some? && flags.Some? && !KeyedText(keys.value, flags.value) {
      var m := Aggregate(keys.value, flags.value);
      groups := WithRates(m);
    }
    top := TopKey(groups);
  }

  // ---------------------------------------------------------------- properties

  /**
   * A group row is the count and the sum of its records' flags with their ratio as a
   * percentage, and exists exactly for the keys some record carries.
   */
  lemma GroupsAt(t: Table, dim: string, k: Key)
    requires t.WellFormed() && dim in t.columns && ATTRITION_BOOL in t.columns
    requires !KeyedText(Column(t, dim).value, Column(t, ATTRITION_BOOL).value)
    ensures var keys, flags := Column(t, dim).value, Column(t, ATTRITION_BOOL).value;
      && (k in Groups(t, dim) <==> exists i :: 0 <= i < |keys| && KeyOf(keys[i]) == Some(k))
      && (k in Groups(t, dim) ==>
            && Groups(t, dim)[k].total == Present(Members(keys, flags, k))
            && Groups(t, dim)[k].left == Total(Members(keys, flags, k)))
  {
    TalliesAt(Column(t, dim).value, Column(t, ATTRITION_BOOL).value, k);
  }

  /** A string flag in a keyed record empties the grouping, so the top group reads "N/A". */
  lemma GroupsFailOnText(t: Table, dim: string, top: Option<Key>)
    requires t.WellFormed() && dim in t.columns && ATTRITION_BOOL in t.columns
    requires KeyedText(Column(t, dim).value, Column(t, ATTRITION_BOOL).value)
    requires IsTopKey(Groups(t, dim), top)
    ensures Groups(t, dim) == map[] && top == None
  {
  }

  /** Without the grouping column there are no groups and the top group reads "N/A". */
  lemma NoDimension(t: Table, dim: string, top: Option<Key>)
    requires t.WellFormed() && dim !in t.columns
    requires IsTopKey(Groups(t, dim), top)
    ensures Groups(t, dim) == map[] && top == None
  {
  }

  lemma {:induction false} PresentAll(s: seq<Value>)
    requires forall j :: 0 <= j < |s| ==> !s[j].Missing?
    ensures Present(s) == |s|
  {
    if s != [] {
      PresentAll(s[..|s| - 1]);
    }
  }

  /**
   * Over 0/1 flags every group has at least one record, its total is its size, its left is at
   * most its total, and its rate is a percentage in [0, 100].
   */
  lemma BinaryGroupRate(t: Table, dim: string, k: Key)
    requires t.WellFormed() && Column(t, ATTRITION_BOOL).Some? && Binary(Column(t, ATTRITION_BOOL).value)
    requires k in Groups(t, dim)
    ensures Groups(t, dim)[k].total >= 1
    ensures 0.0 <= Groups(t, dim)[k].left <= Groups(t, dim)[k].total as real
    ensures Groups(t, dim)[k].rate.Some? && 0.0 <= Groups(t, dim)[k].rate.value <= 100.0
  {
    var keys, flags := Column(t, dim).value, Column(t, ATTRITION_BOOL).value;
    assert !KeyedText(keys, flags);
    TalliesAt(keys, flags, k);
    var s := Members(keys, flags, k);
    assert forall j :: 0 <= j < |s| ==> s[j] == Int(0) || s[j] == Int(1);
    PresentAll(s);
    Kpi.BinaryTotal(s);
    Kpi.TotalAtLeast(s, 0.0);
    Kpi.TotalAtMost(s, 1.0);
    Kpi.TimesIsProduct(0.0, Present(s));
    Kpi.TimesIsProduct(1.0, Present(s));
    var g := Groups(t, dim);
    assert g == WithRates(Tallies(keys, flags));
    var row := g[k];
    assert row == RowOf(Tally(Present(s), Total(s)));
    RateOfBinary(Tally(Present(s), Total(s)));
  }

  /** A group whose left is between 0 and its total has a rate in [0, 100]. */
  lemma RateOfBinary(t: Tally)
    requires t.total > 0 && 0.0 * t.total as real <= t.left <= 1.0 * t.total as real
    ensures RowOf(t).rate.Some? && 0.0 <= RowOf(t).rate.value <= 100.0
  {
    var rate := RowOf(t).rate.value;
    Kpi.RatioBetween(0.0, rate / 100.0, 1.0, t.total as real, t.left);
  }

  // ---------------------------------------------------------------- group totals

  /** The sum of the `total` column of a grouped frame. */
  ghost function SumOfTotals(g: map<Key, GroupRow>): nat
    decreases |g|
  {
    if g == map[] then 0
    else
      var k :| k in g;
      assert |g - {k}| < |g| by {
        assert (g - {k}).Keys == g.Keys - {k};
      }
      g[k].total + SumOfTotals(g - {k})
  }

  /** The sum does not depend on which group is taken first. */
  lemma SumOfTotalsRemove(g: map<Key, GroupRow>, k: Key)
    requires k in g
    ensures SumOfTotals(g) == g[k].total + SumOfTotals(g - {k})
    decreases |g|
  {
    var j :| j in g && SumOfTotals(g) == g[j].total + SumOfTotals(g - {j});
    if j != k {
      assert (g - {j}).Keys == g.Keys - {j} && (g - {k}).Keys == g.Keys - {k};
      SumOfTotalsRemove(g - {j}, k);
      SumOfTotalsRemove(g - {k}, j);
      assert g - {j} - {k} == g - {k} - {j};
    }
  }

  lemma SumOfTotalsUpdate(g: map<Key, GroupRow>, k: Key, row: GroupRow)
    ensures SumOfTotals(g[k := row]) == SumOfTotals(g) - (if k in g then g[k].total else 0) + row.total
  {
    var h := g[k := row];
    SumOfTotalsRemove(h, k);
    assert h - {k} == g - {k};
    if k in g {
      SumOfTotalsRemove(g, k);
    } else {
      assert g - {k} == g;
    }
  }

  /** Number of records with a key and a non-missing flag. */
  function KeyedCount(keys: seq<Value>, flags: seq<Value>): (n: nat)
    requires |keys| == |flags|
    ensures n <= |keys|
  {
    if keys == [] then 0
    else
      var n := |keys| - 1;
      KeyedCount(keys[..n], flags[..n]) + if KeyOf(keys[n]).Some? && !flags[n].Missing? then 1 else 0
  }

  /** Number of records with a non-missing key. */
  function KeyedRecords(keys: seq<Value>): (n: nat)
    ensures n <= |keys|
  {
    if keys == [] then 0 else KeyedRecords(keys[..|keys| - 1]) + if KeyOf(keys[|keys| - 1]).Some? then 1 else 0
  }

  lemma WithRatesUpdate(m: map<Key, Tally>, k: Key, t: Tally)
    ensures WithRates(m[k := t]) == WithRates(m)[k := RowOf(t)]
  {
  }

  /** The group totals add up to the number of keyed records that have a flag. */
  lemma {:induction false} TotalsAddUp(keys: seq<Value>, flags: seq<Value>)
    requires |keys| == |flags|
    ensures SumOfTotals(WithRates(Tallies(keys, flags))) == KeyedCount(keys, flags)
  {
    if keys == [] {
      assert WithRates(Tallies(keys, flags)) == map[];
    } else {
      var n := |keys| - 1;
      TotalsAddUp(keys[..n], flags[..n]);
      var m := Tallies(keys[..n], flags[..n]);
      match KeyOf(keys[n])
      case None =>
      case Some(k) =>
        var before := if k in m then m[k] else Tally(0, 0.0);
        WithRatesUpdate(m, k, AddToTally(before, flags[n]));
        SumOfTotalsUpdate(WithRates(m), k, RowOf(AddToTally(before, flags[n])));
    }
  }

  lemma {:induction false} KeyedCountAll(keys: seq<Value>, flags: seq<Value>)
    requires |keys| == |flags|
    requires forall i :: 0 <= i < |flags| ==> !flags[i].Missing?
    ensures KeyedCount(keys, flags) == KeyedRecords(keys)
  {
    if keys != [] {
      KeyedCountAll(keys[..|keys| - 1], flags[..|flags| - 1]);
    }
  }

  /**
   * Every keyed record with a flag is counted in exactly one group: the totals of the grouped
   * frame add up to their number, which over 0/1 flags is the number of records with a key.
   */
  lemma GroupTotalsAddUp(t: Table, dim: string)
    requires t.WellFormed() && dim in t.columns && ATTRITION_BOOL in t.columns
    requires !KeyedText(Column(t, dim).value, Column(t, ATTRITION_BOOL).value)
    ensures SumOfTotals(Groups(t, dim)) == KeyedCount(Column(t, dim).value, Column(t, ATTRITION_BOOL).value)
    ensures Binary(Column(t, ATTRITION_BOOL).value) ==> SumOfTotals(Groups(t, dim)) == KeyedRecords(Column(t, dim).value)
  {
    var keys, flags := Column(t, dim).value, Column(t, ATTRITION_BOOL).value;
    TotalsAddUp(keys, flags);
    if Binary(flags) {
      KeyedCountAll(keys, flags);
    }
  }
}

=== FILE: tables.dfy ===
/**
 * The employee table as a value: ordered column names and one record per employee, each
 * record holding one (possibly missing) cell per column. Column presence is not fixed.
 */
module Tables {
  import opened Wrappers
  import opened Cells
  import PyText

  type Row = seq<Value>

  datatype Table = Table(columns: seq<string>, rows: seq<Row>)
  {
    /** Every record has one cell per column. */
    predicate WellFormed()
    {
      forall i :: 0 <= i < |rows| ==> |rows[i]| == |columns|
    }
  }

  /** Position of the first column called `name`, or none when the table has no such column. */
  function IndexOf(columns: seq<string>, name: string): (r: Option<nat>)
    ensures r.None? <==> name !in columns
    ensures r.Some? ==> r.value < |columns| && columns[r.value] == name && name !in columns[..r.value]
  {
    if columns == [] then None
    else if columns[0] == name then Some(0)
    else match IndexOf(columns[1..], name)
      case None => None
      case Some(j) =>
        assert columns[..j + 1] == [columns[0]] + columns[1..][..j];
        Some(j + 1)
  }

  lemma {:induction false} IndexOfAppend(columns: seq<string>, name: string, c: string)
    ensures IndexOf(columns + [name], c) ==
      if c in columns then IndexOf(columns, c) else if c == name then Some(|columns|) else None
  {
    if columns != [] {
      assert (columns + [name])[1..] == columns[1..] + [name];
      IndexOfAppend(columns[1..], name, c);
    }
  }

  /** `df[name]` when `name` is a column, as the sequence of its cells; none otherwise. */
  function Column(t: Table, name: string): (r: Option<seq<Value>>)
    requires t.WellFormed()
    ensures r.None? <==> name !in t.columns
    ensures r.Some? ==> |r.value| == |t.rows|
  {
    match IndexOf(t.columns, name)
    case None => None
    case Some(j) => Some(seq(|t.rows|, i requires 0 <= i < |t.rows| => t.rows[i][j]))
  }

  /** The records with cell `j` of record `i` replaced by `values[i]`. */
  function OverwriteCells(rows: seq<Row>, j: nat, values: seq<Value>): (r: seq<Row>)
    requires |values| == |rows| && forall i :: 0 <= i < |rows| ==> j < |rows[i]|
    ensures |r| == |rows| && forall i :: 0 <= i < |r| ==> r[i] == rows[i][j := values[i]]
  {
    seq(|rows|, i requires 0 <= i < |rows| => rows[i][j := values[i]])
  }

  /** The records with `values[i]` added at the end of record `i`. */
  function AppendCells(rows: seq<Row>, values: seq<Value>): (r: seq<Row>)
    requires |values| == |rows|
    ensures |r| == |rows| && forall i :: 0 <= i < |r| ==> r[i] == rows[i] + [values[i]]
  {
    seq(|rows|, i requires 0 <= i < |rows| => rows[i] + [values[i]])
  }

  /** Overwriting column `j` leaves every column found elsewhere as it was. */
  lemma OverwriteOthers(t: Table, j: nat, values: seq<Value>, c: string)
    requires t.WellFormed() && |values| == |t.rows| && j < |t.columns|
    requires IndexOf(t.columns, c) != Some(j)
    ensures Table(t.columns, OverwriteCells(t.rows, j, values)).WellFormed()
    ensures Column(Table(t.columns, OverwriteCells(t.rows, j, values)), c) == Column(t, c)
  {
    var r := Table(t.columns, OverwriteCells(t.rows, j, values));
    if c in t.columns {
      var k := IndexOf(t.columns, c).value;
      assert forall i :: 0 <= i < |t.rows| ==> r.rows[i][k] == t.rows[i][k];
      assert Column(r, c).value == Column(t, c).value;
    }
  }

  /** Appending a column called `name` leaves every other column as it was. */
  lemma AppendOthers(t: Table, name: string, values: seq<Value>, c: string)
    requires t.WellFormed() && |values| == |t.rows| && name !in t.columns && c != name
    ensures Table(t.columns + [name], AppendCells(t.rows, values)).WellFormed()
    ensures Column(Table(t.columns + [name], AppendCells(t.rows, values)), c) == Column(t, c)
  {
    var r := Table(t.columns + [name], AppendCells(t.rows, values));
    IndexOfAppend(t.columns, name, c);
    if c in t.columns {
      var k := IndexOf(t.columns, c).value;
      assert forall i :: 0 <= i < |t.rows| ==> r.rows[i][k] == t.rows[i][k];
      assert Column(r, c).value == Column(t, c).value;
    }
  }

  /**
   * `df[name] = values`: an existing column is overwritten in place, a new one is appended
   * after the others. Every other column keeps its cells.
   */
  function WithColumn(t: Table, name: string, values: seq<Value>): (r: Table)
    requires t.WellFormed() && |values| == |t.rows|
    ensures r.WellFormed() && |r.rows| == |t.rows|
    ensures r.columns == if name in t.columns then t.columns else t.columns + [name]
    ensures Column(r, name) == Some(values)
    ensures forall c :: c != name ==> Column(r, c) == Column(t, c)
  {
    match IndexOf(t.columns, name)
    case Some(j) =>
      var r := Table(t.columns, OverwriteCells(t.rows, j, values));
      assert Column(r, name).value == values;
      forall c | c != name
        ensures Column(r, c) == Column(t, c)
      {
        OverwriteOthers(t, j, values, c);
      }
      r
    case None =>
      var r := Table(t.columns + [name], AppendCells(t.rows, values));
      IndexOfAppend(t.columns, name, name);
      assert Column(r, name).value == values;
      forall c | c != name
        ensures Column(r, c) == Column(t, c)
      {
        AppendOthers(t, name, values, c);
      }
      r
  }

  /** Assigning a column the cells it already has changes nothing. */
  lemma {:induction false} WithColumnUnchanged(t: Table, name: string, values: seq<Value>)
    requires t.WellFormed() && Column(t, name) == Some(values)
    ensures WithColumn(t, name, values) == t
  {
    var j := IndexOf(t.columns, name).value;
    var r := WithColumn(t, name, values);
    assert forall i :: 0 <= i < |t.rows| ==> values[i] == t.rows[i][j];
    assert forall i :: 0 <= i < |t.rows| ==> r.rows[i] == t.rows[i];
  }

  /** `df.columns = [c.strip() for c in df.columns]`. */
  function StripColumnNames(t: Table): (r: Table)
  {
    Table(seq(|t.columns|, k requires 0 <= k < |t.columns| => PyText.Strip(t.columns[k])), t.rows)
  }

  /**
   * After stripping, each column answers to its stripped name, and stripping again is a no-op,
   * so the second strip before the derivations (after the one done on load) changes nothing.
   */
  lemma {:induction false} StripColumnNamesSpec(t: Table)
    requires t.WellFormed()
    ensures StripColumnNames(t).WellFormed()
    ensures forall k :: 0 <= k < |t.columns| ==> PyText.Strip(t.columns[k]) in StripColumnNames(t).columns
    ensures StripColumnNames(StripColumnNames(t)) == StripColumnNames(t)
  {
    var r := StripColumnNames(t);
    assert forall k :: 0 <= k < |t.columns| ==> r.columns[k] == PyText.Strip(t.columns[k]);
    forall k | 0 <= k < |r.columns|
      ensures PyText.Strip(r.columns[k]) == r.columns[k]
    {
      PyText.StripIdempotent(t.columns[k]);
    }
    assert StripColumnNames(r).columns == r.columns;
  }
}

=== FILE: wrappers.dfy ===
/** Option and Result, used wherever the dashboard reports "N/A" or an error instead of a value. */
module Wrappers {

  datatype Option<+T> = None | Some(value: T)

  datatype Result<+T, +E> = Success(value: T) | Failure(error: E)
  {
    predicate IsFailure() { Failure? }

    function PropagateFailure<U>(): Result<U, E>
      requires Failure?
    {
      Failure(error)
    }

    function Extract(): T
      requires Success?
    {
      value
    }
  }
}
